=== FILE: README.md ===
# Lokal-GbtAgent core, modelled in Dafny

Lokal-GbtAgent is a local agent: it indexes a project directory, renders a
Markdown report and a short summary of it, and talks to a language model
through two text protocols. This project models the decision logic of that
core and proves what it promises.

- **Indexer** (`indexer.dfy`) is the bounded project indexer `build_index`.
  - It walks the tree with excluded directories pruned at every depth.
  - It counts files and bytes until a file cap or a byte cap is reached, skipping entries whose `stat` fails.
  - It picks "important" files in three tiers, deduplicated and cut to `important_limit`:
    - preferred names at the root, in a fixed order;
    - at most six root `*.py` entries, by name;
    - the scanned text files, smallest first.
  - It reads a truncated snippet of each important file and builds a sorted tree preview.
  - The scan loop, the three selection loops, the snippet loop and the preview are methods with loops. Each is proved equal to a specification function, and the lemmas state what those functions promise.
- **Protocol** (`protocol.dfy`) is the lenient `FINAL_REPORT` extractor.
  - The one regular expression becomes a scanner (`Search`) and a declarative description of its matches (`IsMatch`).
  - The lemmas prove three things about the scanner:
    - the scanner finds only matches;
    - it finds the leftmost match, with the shortest `{…}` group;
    - text with no match gives `None`.
  - The pydantic schema `FinalReport`/`ArtifactOut` becomes a validator over an abstract JSON value. The model proves its rejections, its defaults, that it ignores unknown keys, and a round trip from report to JSON and back.
- **TaskSpec** (`taskspec.dfy`) is the strict validation inside `compile_plan_to_taskspec_json`. It is a chain of guards over the stripped model reply, with one error per guard. The model proves:
  - which error each input gets, and that the first failing check wins;
  - the exact acceptance condition;
  - that an accepted object is returned unchanged.
- **Report** (`report.dfy`) is `_render_summary` and `_render_report` of the real agent. The summary has four lines. The report has a fixed section order, and a snippet block appears exactly for the files that have a snippet. The loop that appends the sections is a method proved against the section list.
- **Shared modules:**
  - `Text`: Python whitespace, `strip`, `join`, `split`, decimal formatting, code-point string order.
  - `Seqs`: a stable sort by a total preorder, subsequences, and a loop that stops at its first error.
  - `JsonModel`: the abstract JSON value.
  - `Wrappers`: `Option` and `Result`.

The filesystem, `json.loads` and the language model are inputs, not code.

- A directory tree is a sequence of `FileEntry` values in walk order. Each holds:
  - the directory names leading to it;
  - its name;
  - whether it is a file;
  - its size, or `None` when `stat` fails;
  - its decoded content, or `None` when reading fails.
- A separate `listing` holds the entries directly under the root.
- `json.loads` is a parameter `parse`.
  - In `Protocol` it is `string -> ParseOutcome`: a parsed value, a `JSONDecodeError`, or any other exception (`RecursionError`, or the `ValueError` for an over-long integer literal), because protocol.py catches only the first kind.
  - In `TaskSpec` it is `string -> Option<Json>`, because openai_client.py catches every exception alike.

## Model

Every source path is relative to the repository root.

| member | source | states |
|---|---|---|
| Indexer.Suffix | src/lokal_agent/core/indexing/indexer.py:45-48 | `Path.suffix`: non-empty whenever the last dot is neither the first nor the last character of the name, and then a dot, at least one character and no further dot, taken from the end of the name and shorter than the name |
| Indexer.LastDot | src/lokal_agent/core/indexing/indexer.py:45 | the position of the last dot of a name, or -1 when there is none |
| Indexer.LowerAscii | src/lokal_agent/core/indexing/indexer.py:45 | maps each ASCII capital to its small letter and keeps every other character, so the length is kept |
| Indexer.ProbablyText | src/lokal_agent/core/indexing/indexer.py:44-48 | `_is_probably_text`: ProbablyTextIff gives exactly when it answers true, false, or raises on a failed stat |
| Indexer.ProbablyTextIff | src/lokal_agent/core/indexing/indexer.py:44-48 | a file is text exactly when its lower-cased suffix is allow-listed, or it has no suffix and its size is below 200 000; the check raises exactly when there is no allow-listed suffix, no suffix at all and the stat fails |
| Indexer.NoSuffixBySize | src/lokal_agent/core/indexing/indexer.py:47-48 | without a suffix, only the size decides, and a failed stat is an error |
| Indexer.NoSuffixNotAllowListed | src/lokal_agent/core/indexing/indexer.py:45 | a name without a suffix never matches the allow-list |
| Indexer.AllowListLengths | src/lokal_agent/core/indexing/indexer.py:20-25 | every allow-listed extension has 3 to 5 characters or 10 |
| Indexer.LeadingDotOnlyIsNoSuffix | src/lokal_agent/core/indexing/indexer.py:45 | a name whose only dot is its first character has no suffix |
| Indexer.DotfilesAreExtensionless | src/lokal_agent/core/indexing/indexer.py:22 | `.env` and `.gitignore` have no suffix, so their allow-list entries never match; they are text only by the size rule |
| Indexer.EnvExampleSuffix | src/lokal_agent/core/indexing/indexer.py:103 | the suffix of `.env.example` is `.example` |
| Indexer.ExampleNotAllowListed | src/lokal_agent/core/indexing/indexer.py:20-25 | the suffix `.example` is not allow-listed |
| Indexer.EnvExampleIsNeverText | src/lokal_agent/core/indexing/indexer.py:44-48 | the preferred file `.env.example` is never text, whatever its size, so it never gets a snippet |
| Indexer.NormalizeNewlines | src/lokal_agent/core/indexing/indexer.py:56 | `replace("\r\n", "\n")`: NormalizeNewlinesSpec shows it removes exactly the carriage returns that precede a line feed and changes nothing else |
| Indexer.NormalizeKeepsNonCr | src/lokal_agent/core/indexing/indexer.py:56 | replacing `\r\n` by `\n` changes nothing but carriage returns |
| Indexer.NormalizeLength | src/lokal_agent/core/indexing/indexer.py:56 | the text gets shorter by one per `\r\n` pair and is unchanged without one |
| Indexer.NormalizeNewlinesSpec | src/lokal_agent/core/indexing/indexer.py:56 | the two facts above together |
| Indexer.SafeReadText | src/lokal_agent/core/indexing/indexer.py:51-59 | a failed read gives `""`; otherwise the normalised text, or its first `max_chars` characters plus the truncation marker when it is longer; never longer than `max_chars` plus the marker |
| Indexer.EffectiveExclude | src/lokal_agent/core/indexing/indexer.py:80 | a missing or empty exclude set falls back to the default set; otherwise it is used as given |
| Indexer.WalkFiles | src/lokal_agent/core/indexing/indexer.py:62-67 | the walk keeps walk order and yields exactly the entries that lie under no excluded directory; files directly under the root are never pruned |
| Indexer.TotalSizeAppend | src/lokal_agent/core/indexing/indexer.py:93 | appending a file adds its size to the byte total |
| Indexer.Scan | src/lokal_agent/core/indexing/indexer.py:82-97 | the scan loop returns the scanned files, with the file counter equal to their number and the byte counter equal to the sum of their sizes |
| Indexer.ScanFromPrefix | src/lokal_agent/core/indexing/indexer.py:86-94 | the scanned files are a prefix of the walk with failed stats removed |
| Indexer.UnderCapsCons | src/lokal_agent/core/indexing/indexer.py:96-97 | no cap reached before a file and none within the rest means none reached within the whole |
| Indexer.ScanFromUnderCaps | src/lokal_agent/core/indexing/indexer.py:96-97 | no file before the last scanned one reaches a cap |
| Indexer.ScanFromStopsAtCap | src/lokal_agent/core/indexing/indexer.py:96-97 | the scan stops before the end of the walk only right after a file that reaches a cap |
| Indexer.ScannedIsScan | src/lokal_agent/core/indexing/indexer.py:86-97 | the scanned files satisfy the loop-free description of the scan |
| Indexer.ScanIsUnique | src/lokal_agent/core/indexing/indexer.py:86-97 | that description has exactly one solution |
| Indexer.ScanBounds | src/lokal_agent/core/indexing/indexer.py:92-97 | at most `max_files` files when `max_files >= 1`; the bytes before the last file are below `max_total_bytes`; every scanned file has a size |
| Indexer.StatOkHasSizes | src/lokal_agent/core/indexing/indexer.py:87-90 | entries whose stat failed are not kept |
| Indexer.AtRoot | src/lokal_agent/core/indexing/indexer.py:110 | `root / name` has the entry's name as its relative path and keeps its kind and size |
| Indexer.LookupRoot | src/lokal_agent/core/indexing/indexer.py:110-111 | finds an entry of the root listing by name, or shows that there is none |
| Indexer.IsRootFile | src/lokal_agent/core/indexing/indexer.py:110-111 | `(root / name).exists() and .is_file()`: the name is an entry of the root listing that is a file and whose stat succeeds |
| Indexer.PreferredFound | src/lokal_agent/core/indexing/indexer.py:109-112 | the first loop over a list of names: PreferredFoundOrder, PreferredFoundExact and PreferredFoundDistinct show it keeps name order, holds exactly the names that are root files, and holds no path twice |
| Indexer.Tier1 | src/lokal_agent/core/indexing/indexer.py:108-112 | tier one is that loop over the eleven preferred names, which are distinct (DistinctPreferredNames) |
| Indexer.PreferredFoundOrder | src/lokal_agent/core/indexing/indexer.py:108-112 | tier one lists existing root files, in the order of the preferred names |
| Indexer.PreferredFoundExact | src/lokal_agent/core/indexing/indexer.py:109-112 | a preferred name is in tier one exactly when it exists as a file at the root |
| Indexer.PreferredFoundDistinct | src/lokal_agent/core/indexing/indexer.py:109-112 | tier one has no path twice when the names are distinct |
| Indexer.DistinctPreferredNames | src/lokal_agent/core/indexing/indexer.py:100-105 | the preferred names are distinct |
| Indexer.RootSources | src/lokal_agent/core/indexing/indexer.py:115 | the glob yields root entries whose name ends in `.py`, and every such entry of the listing |
| Indexer.RootSourcesOrigin | src/lokal_agent/core/indexing/indexer.py:115 | every globbed entry comes from the listing |
| Indexer.NameLeTotalPreorder | src/lokal_agent/core/indexing/indexer.py:115 | root paths compare by name in a total preorder |
| Indexer.Tier2 | src/lokal_agent/core/indexing/indexer.py:115 | `sorted(root.glob("*.py"))[:6]`: Tier2Sorted and Tier2Smallest show it holds at most six root sources, sorted by name, the smallest ones |
| Indexer.Tier2Sorted | src/lokal_agent/core/indexing/indexer.py:115 | tier two has at most six root `*.py` entries, sorted by name, each taken from the root sources no more often than it occurs there |
| Indexer.Tier2Smallest | src/lokal_agent/core/indexing/indexer.py:115 | a root `*.py` entry left out of tier two sorts after all six that were taken |
| Indexer.TextFiles | src/lokal_agent/core/indexing/indexer.py:120 | the text files keep walk order (a subsequence of the scanned files) and are exactly the scanned regular files that the text check accepts |
| Indexer.ScannedTextCheckSucceeds | src/lokal_agent/core/indexing/indexer.py:120 | the text check never raises on a scanned file, because every scanned file has a size |
| Indexer.SizeLeTotalPreorder | src/lokal_agent/core/indexing/indexer.py:121 | the size key orders files in a total preorder |
| Indexer.Tier3 | src/lokal_agent/core/indexing/indexer.py:120-121 | the text files sorted by size: Tier3Facts shows it is a sorted, stable permutation of the text files |
| Indexer.Tier3Facts | src/lokal_agent/core/indexing/indexer.py:120-121 | tier three is the text files, sorted by size, as a permutation, and stable: files of equal key keep their scan order |
| Indexer.AddNew | src/lokal_agent/core/indexing/indexer.py:116-117 | `if p not in important_paths: append`: AddNewFacts shows it appends only a new path and keeps paths distinct |
| Indexer.AppendNew | src/lokal_agent/core/indexing/indexer.py:115-117 | the second loop: AppendNewExtends, AppendNewCovers and AppendNewDistinct show it appends a subsequence of tier two, leaves every tier-two path present and adds no duplicate |
| Indexer.FillUpTo | src/lokal_agent/core/indexing/indexer.py:122-126 | the third loop with its `break`: FillUpToExtends, FillUpToCovers, FillUpToDistinct and FillSaturated show it appends a subsequence of tier three, stops at the limit, covers tier three below it and adds no duplicate |
| Indexer.Candidates | src/lokal_agent/core/indexing/indexer.py:108-126 | `important_paths` after the three loops: CandidatesLayout shows it is tier one, then part of tier two, then part of tier three |
| Indexer.Selection | src/lokal_agent/core/indexing/indexer.py:129 | `important_paths[:important_limit]`: SelectionWellFormed, SelectionTierOrder, SelectionComplete and SelectedEntryOrigin show it is bounded, duplicate-free, in tier order, complete below the limit and drawn from the three sources |
| Indexer.AddNewFacts | src/lokal_agent/core/indexing/indexer.py:116-117 | "append if not present" appends only a new path, keeps what is there, and keeps paths distinct |
| Indexer.AppendNewExtends | src/lokal_agent/core/indexing/indexer.py:115-117 | the second loop only appends, and what it appends is a subsequence of tier two |
| Indexer.AppendNewCovers | src/lokal_agent/core/indexing/indexer.py:115-117 | after the second loop every tier-two path is present |
| Indexer.AppendNewDistinct | src/lokal_agent/core/indexing/indexer.py:115-117 | the second loop adds no duplicate path |
| Indexer.FillUpToExtends | src/lokal_agent/core/indexing/indexer.py:122-126 | the third loop only appends, a subsequence of tier three, and stops at `important_limit` |
| Indexer.FillUpToCovers | src/lokal_agent/core/indexing/indexer.py:122-126 | if the list stays below the limit, every tier-three path is present |
| Indexer.FillUpToDistinct | src/lokal_agent/core/indexing/indexer.py:125-126 | the third loop adds no duplicate path |
| Indexer.FillSaturated | src/lokal_agent/core/indexing/indexer.py:123-124 | once the list is full, the rest of the loop changes nothing |
| Indexer.SelectImportant | src/lokal_agent/core/indexing/indexer.py:106-126 | the three loops build the ordered candidate list |
| Indexer.SelectionWellFormed | src/lokal_agent/core/indexing/indexer.py:116-129 | the selection has at most `important_limit` entries and no path twice |
| Indexer.MergeLayout | src/lokal_agent/core/indexing/indexer.py:114-126 | the merged list is the first part, then a subsequence of the second, then a subsequence of the third |
| Indexer.CandidatesLayout | src/lokal_agent/core/indexing/indexer.py:106-126 | the candidates are tier one, then part of tier two, then part of tier three |
| Indexer.SelectionTierOrder | src/lokal_agent/core/indexing/indexer.py:100-129 | the selection is a prefix of the candidates: preferred names in order, then at most six root sources by name, then text files by size |
| Indexer.SelectionComplete | src/lokal_agent/core/indexing/indexer.py:119-126 | a candidate list below the limit is the whole selection and holds every tier-two and tier-three path |
| Indexer.SegmentMembers | src/lokal_agent/core/indexing/indexer.py:106-126 | an entry of three concatenated segments lies in one of them |
| Indexer.SelectedEntryOrigin | src/lokal_agent/core/indexing/indexer.py:106-126 | every selected entry is a preferred root file, a root `*.py` entry or a scanned file |
| Indexer.IndexFile | src/lokal_agent/core/indexing/indexer.py:130-135 | one pass of the snippet loop: IndexFileFacts gives its path, size and snippet, and that it fails exactly when the text check raises |
| Indexer.IndexFiles | src/lokal_agent/core/indexing/indexer.py:128-135 | the snippet loop up to its first raise: IndexFilesFacts describes every entry of a successful pass |
| Indexer.IndexFileFacts | src/lokal_agent/core/indexing/indexer.py:130-135 | one selected file: its relative path, its stat size or 0 when the stat fails, and a snippet that is the bounded read of the file when it is text and empty otherwise; it fails exactly when the text check raises |
| Indexer.IndexFilesFacts | src/lokal_agent/core/indexing/indexer.py:128-135 | a successful pass describes every selected file in order, with its path, its stat size and, for a text file, the bounded read as its snippet; distinct selected paths give distinct entries |
| Indexer.MakeImportant | src/lokal_agent/core/indexing/indexer.py:128-135 | the snippet loop returns the entries of the selection, or the first failure |
| Indexer.MoreLineHasNoNewline | src/lokal_agent/core/indexing/indexer.py:158 | the `... (k more)` line has no line break |
| Indexer.StrLeTotalPreorder | src/lokal_agent/core/indexing/indexer.py:155 | string order is a total preorder |
| Indexer.SortPathsSorted | src/lokal_agent/core/indexing/indexer.py:155 | `rels.sort()` sorts |
| Indexer.PreviewLines | src/lokal_agent/core/indexing/indexer.py:155-158 | the preview lines: PreviewLinesShape, PreviewLinesFit, PreviewLinesMore and PreviewKeepsSmallest show they are the smallest `max_lines` paths in order plus a count of the rest |
| Indexer.TreePreview | src/lokal_agent/core/indexing/indexer.py:148-159 | the preview text: TreePreviewSplits shows it splits back into the preview lines |
| Indexer.PreviewLinesShape | src/lokal_agent/core/indexing/indexer.py:155-158 | the preview shows the first `max_lines` paths in sorted order, each no more often than it occurs among the paths, all of them when they fit, and otherwise one more line counting the paths left out |
| Indexer.PreviewLinesFit | src/lokal_agent/core/indexing/indexer.py:155-156 | when the paths fit, the preview lines are exactly the paths, reordered |
| Indexer.PreviewLinesMore | src/lokal_agent/core/indexing/indexer.py:157-158 | when they do not, the line after the first `max_lines` is the count of the rest |
| Indexer.PreviewKeepsSmallest | src/lokal_agent/core/indexing/indexer.py:155-156 | a path left out sorts after every path shown |
| Indexer.PreviewLinesNoNewline | src/lokal_agent/core/indexing/indexer.py:155-158 | no preview line holds a line break when no path does |
| Indexer.TreePreviewSplits | src/lokal_agent/core/indexing/indexer.py:155-159 | the preview splits back into its lines |
| Indexer.RelativePaths | src/lokal_agent/core/indexing/indexer.py:149-154 | the loop collects the relative path of every scanned file, in order |
| Indexer.MakeTreePreview | src/lokal_agent/core/indexing/indexer.py:148-159 | `_make_tree_preview` returns the preview lines joined by line breaks |
| Indexer.BuildIndexSpec | src/lokal_agent/core/indexing/indexer.py:70-145 | `build_index` as a function: BuildIndexFacts describes its successful results and BuildIndexFailsOnlyOnDotPy the only failure the model admits |
| Indexer.BuildIndex | src/lokal_agent/core/indexing/indexer.py:70-145 | `build_index` returns the index of its specification, or the first failure of the text check |
| Indexer.BuildIndexFacts | src/lokal_agent/core/indexing/indexer.py:82-145 | a successful index: the counters describe the scanned files, at most `important_limit` important files, no path twice, each with its path, its stat size (0 on a failed stat) and a snippet that is the bounded read of a text file and empty for any other |
| Indexer.BuildIndexFailsOnlyOnDotPy | src/lokal_agent/core/indexing/indexer.py:115 | within the model's stat abstraction (a failed stat reads as a missing size), indexing fails only for a root entry named exactly `.py` whose stat fails; the glob picks it up, it has no suffix, and the text check at line 134 needs its size |
| Indexer.DotPyOnly | src/lokal_agent/core/indexing/indexer.py:48 | the one name ending in `.py` without a suffix is `.py` itself |
| Seqs.SortBy | src/lokal_agent/core/indexing/indexer.py:121 | the sort returns a permutation of its input |
| Seqs.SortBySorted | src/lokal_agent/core/indexing/indexer.py:155 | the sort orders its output by a total preorder |
| Seqs.SortByStable | src/lokal_agent/core/indexing/indexer.py:121 | the sort is stable: elements with equal keys keep their input order |
| Seqs.MapUntilErrOk | src/lokal_agent/core/indexing/indexer.py:129-135 | a loop whose body may raise succeeds exactly when every step does, and collects every result in order |
| Seqs.MapUntilErrFirstError | src/lokal_agent/core/indexing/indexer.py:129-135 | a failing loop reports the error of its first failing step |
| Seqs.MapUntilErrSticky | src/lokal_agent/core/indexing/indexer.py:129-135 | once a prefix fails, the whole loop fails the same way |
| Seqs.SubseqKeepsSorted | src/lokal_agent/core/indexing/indexer.py:115-126 | what is kept of a sorted list stays sorted |
| Text.Strip | src/lokal_agent/core/llm/openai_client.py:58 | `str.strip()` returns a text that neither starts nor ends with whitespace |
| Text.StripIsSlice | src/lokal_agent/core/llm/openai_client.py:58 | the stripped text is a slice of the input, with only whitespace around it |
| Text.StripEmptyIff | src/lokal_agent/core/llm/openai_client.py:72 | the stripped text is empty exactly when the input is all whitespace |
| Text.StripIdempotent | src/lokal_agent/core/llm/openai_client.py:58 | stripping twice is stripping once |
| Text.Take | src/lokal_agent/core/llm/openai_client.py:62 | `s[:n]` is the prefix of length `n`, or all of `s` when it is shorter |
| Text.SplitJoin | src/lokal_agent/core/agent/real_agent.py:94 | lines without line breaks, joined by `\n`, split back into the same lines |
| Text.NatToStringRoundTrip | src/lokal_agent/core/agent/real_agent.py:50 | the decimal text of a counter reads back as the counter |
| Text.StrLeTotal | src/lokal_agent/core/indexing/indexer.py:155 | any two strings compare |
| Text.StrLeTrans | src/lokal_agent/core/indexing/indexer.py:155 | string order is transitive |
| Text.StrLeAntisym | src/lokal_agent/core/indexing/indexer.py:155 | strings that compare both ways are equal |
| Protocol.SkipSpace | src/lokal_agent/core/agent/protocol.py:27 | a greedy `\s*` stops inside the text |
| Protocol.SkipSpaceFacts | src/lokal_agent/core/agent/protocol.py:27 | `\s*` consumes only whitespace and stops at the end or at a character that is not whitespace |
| Protocol.SkipSpaceUnique | src/lokal_agent/core/agent/protocol.py:27 | that stopping point is the only one |
| Protocol.FindClose | src/lokal_agent/core/agent/protocol.py:27 | the lazy group ends at a `}` that a closing fence follows |
| Protocol.FindCloseFirst | src/lokal_agent/core/agent/protocol.py:27 | the lazy group takes the first such `}` |
| Protocol.MatchFromBraceSound | src/lokal_agent/core/agent/protocol.py:26-29 | the tail of an attempt, from `{` on, matches the brace group and the closing fence |
| Protocol.MatchFromFenceSound | src/lokal_agent/core/agent/protocol.py:26-29 | the tail of an attempt, from the opening fence on, matches the pattern |
| Protocol.MatchAtSound | src/lokal_agent/core/agent/protocol.py:26-29 | an attempt that succeeds is a match of the pattern |
| Protocol.MatchFromBraceShortest | src/lokal_agent/core/agent/protocol.py:27 | from an opening `{`, the attempt succeeds whenever some closing `}` works, and closes no later than it |
| Protocol.MatchFromFenceShortest | src/lokal_agent/core/agent/protocol.py:27 | the same, from the opening fence on |
| Protocol.MatchAtShortest | src/lokal_agent/core/agent/protocol.py:26-29 | at a position where a match starts, the attempt succeeds with the shortest group |
| Protocol.Search | src/lokal_agent/core/agent/protocol.py:33 | a match found lies inside the text |
| Protocol.SearchSound | src/lokal_agent/core/agent/protocol.py:33 | what `search` finds is a match of the pattern |
| Protocol.SearchLeftmostShortest | src/lokal_agent/core/agent/protocol.py:26-33 | whenever the text holds a match, `search` finds one that starts no later, and at the same start has a group no longer |
| Protocol.PayloadIsBraced | src/lokal_agent/core/agent/protocol.py:37 | the captured group starts with `{` and ends with `}` |
| Protocol.ValidateFinalReport | src/lokal_agent/core/agent/protocol.py:18-23 | a validated report has `type == "final"` and the summary string of the object |
| Protocol.TryExtractFinalReport | src/lokal_agent/core/agent/protocol.py:32-46 | the extractor with every failure mapped to `None`: TryExtractCases and ParseFailureIsNone describe its results; AsWrittenAgrees ties it to the code as written |
| Protocol.TryExtractCases | src/lokal_agent/core/agent/protocol.py:32-46 | text without a match gives `None`; a result is the validation of the parsed group of the first match and has `type == "final"` |
| Protocol.ParseFailureIsNone | src/lokal_agent/core/agent/protocol.py:38-41 | a group whose parse fails in any way gives `None` |
| Protocol.TryExtractAsWritten | src/lokal_agent/core/agent/protocol.py:32-46 | the function as written: a decode error gives `None`, but any other parser exception escapes |
| Protocol.AsWrittenRaises | src/lokal_agent/core/agent/protocol.py:38-41 | when the parser raises something other than a decode error, the function as written raises where the intended one gives `None` |
| Protocol.AsWrittenAgrees | src/lokal_agent/core/agent/protocol.py:32-46 | in every other case the two agree |
| Protocol.MatchReachesParser | src/lokal_agent/core/agent/protocol.py:33-41 | any text holding a match of the pattern hands a group to the parser, so a raising parser makes the function as written raise |
| Protocol.SchemaRejects | src/lokal_agent/core/agent/protocol.py:19-20 | a missing or non-string `summary`, or a `type` other than `"final"`, gives `None` |
| Protocol.SchemaDefaults | src/lokal_agent/core/agent/protocol.py:19-23 | an object with only `summary` (and possibly `type: "final"`) gets type `final`, empty artifacts and next steps, and `done == true` |
| Protocol.ExtraKeysIgnored | src/lokal_agent/core/agent/protocol.py:18-23 | keys outside the schema do not change the result |
| Protocol.ArtifactsJson | src/lokal_agent/core/agent/protocol.py:21 | one JSON value per artifact |
| Protocol.StringsJson | src/lokal_agent/core/agent/protocol.py:22 | one JSON value per next step |
| Protocol.ArtifactRoundTrip | src/lokal_agent/core/agent/protocol.py:13-15 | an artifact written as JSON validates back to itself |
| Protocol.ArtifactsRoundTrip | src/lokal_agent/core/agent/protocol.py:21 | a list of artifacts round-trips |
| Protocol.StringsRoundTrip | src/lokal_agent/core/agent/protocol.py:22 | a list of next steps round-trips |
| Protocol.ReportJsonFields | src/lokal_agent/core/agent/protocol.py:18-23 | the JSON form of a report holds each field under its schema key |
| Protocol.ValidateFromFields | src/lokal_agent/core/agent/protocol.py:18-23 | an object whose five fields validate to a report's fields validates to that report |
| Protocol.ReportRoundTrip | src/lokal_agent/core/agent/protocol.py:18-23 | every report of type `final`, written as JSON, validates back to itself |
| TaskSpec.CompileTaskSpec | src/lokal_agent/core/llm/openai_client.py:58-81 | the error for a reply that does not start with `{` quotes at most 60 characters; the error for invalid JSON quotes at most 8000 |
| TaskSpec.FieldErrorNoneIff | src/lokal_agent/core/llm/openai_client.py:70-79 | the four field checks pass exactly on a TaskSpec: the version tag, a goal that is not blank, and non-empty lists of steps and done criteria |
| TaskSpec.CompileOkIff | src/lokal_agent/core/llm/openai_client.py:58-81 | a reply is accepted exactly when its stripped text starts with `{`, parses and is a TaskSpec; the parsed object is returned unchanged |
| TaskSpec.NotJsonOnlyQuotesHead | src/lokal_agent/core/llm/openai_client.py:61-62 | a reply not starting with `{` is rejected before parsing, quoting the first 60 characters of the stripped reply |
| TaskSpec.InvalidJsonQuotesRaw | src/lokal_agent/core/llm/openai_client.py:64-67 | a reply that does not parse is rejected, quoting the first 8000 characters |
| TaskSpec.FirstFailureReported | src/lokal_agent/core/llm/openai_client.py:70-79 | each of the four field errors is reported exactly when its check is the first to fail |
| TaskSpec.SurroundingSpaceIgnored | src/lokal_agent/core/llm/openai_client.py:58 | whitespace around the reply makes no difference |
| Report.RenderSummary | src/lokal_agent/core/agent/real_agent.py:48-54 | `_render_summary`: SummaryLines shows it splits into its four lines when the root, message and paths hold no line break |
| Report.ImportantPaths | src/lokal_agent/core/agent/real_agent.py:53 | the paths of the important files, in index order |
| Report.SummaryLineList | src/lokal_agent/core/agent/real_agent.py:48-54 | the summary has four lines |
| Report.ImportantNames | src/lokal_agent/core/agent/real_agent.py:53 | the names on the last summary line: ImportantNamesCases shows they are every path, joined, or `(keine)` |
| Report.ImportantNamesCases | src/lokal_agent/core/agent/real_agent.py:53 | the last summary line lists every path, joined by `", "`, or says `(keine)` when there is none |
| Report.SummaryLines | src/lokal_agent/core/agent/real_agent.py:48-54 | when the root, the message and the paths hold no line break, the summary splits into exactly its four lines |
| Report.SummaryLinesUnbroken | src/lokal_agent/core/agent/real_agent.py:48-54 | no summary line holds a line break under those conditions |
| Report.CountLineUnbroken | src/lokal_agent/core/agent/real_agent.py:50 | the count line never holds a line break |
| Report.NamesUnbroken | src/lokal_agent/core/agent/real_agent.py:53 | the list of names holds no line break when no path does |
| Report.DigitsAvoidNewline | src/lokal_agent/core/agent/real_agent.py:50 | decimal digits are not line breaks |
| Report.ImportantLines | src/lokal_agent/core/agent/real_agent.py:57 | one ``- `path` (size bytes)`` line per important file, in index order |
| Report.ImportantBlock | src/lokal_agent/core/agent/real_agent.py:57 | the `imp` block: ImportantBlockLines shows it is `- (keine)` exactly when there is no important file, otherwise one line per file |
| Report.ImportantBlockLines | src/lokal_agent/core/agent/real_agent.py:57 | the block is `- (keine)` exactly when there are no important files, and otherwise splits into one line per file |
| Report.TaskText | src/lokal_agent/core/agent/real_agent.py:63 | the task section: TaskTextCases shows it is the stripped message, or `(leer)` when blank |
| Report.TaskTextCases | src/lokal_agent/core/agent/real_agent.py:63 | the task section holds the stripped message, or `(leer)` when it is blank |
| Report.Header | src/lokal_agent/core/agent/real_agent.py:60-79 | the nineteen sections before the snippets |
| Report.SnippetBlock | src/lokal_agent/core/agent/real_agent.py:83-87 | five sections per snippet |
| Report.SnippetSectionsStep | src/lokal_agent/core/agent/real_agent.py:80-87 | one pass of the snippet loop adds a block exactly for a file with a snippet |
| Report.RenderReport | src/lokal_agent/core/agent/real_agent.py:56-94 | `_render_report` returns the report's sections joined by line breaks |
| Report.WithSnippet | src/lokal_agent/core/agent/real_agent.py:81-82 | only files with a non-empty snippet are kept |
| Report.WithSnippetOrdered | src/lokal_agent/core/agent/real_agent.py:80-82 | the files with a snippet keep index order |
| Report.WithSnippetComplete | src/lokal_agent/core/agent/real_agent.py:80-82 | no file with a snippet is missed |
| Report.SnippetSections | src/lokal_agent/core/agent/real_agent.py:79-87 | the sections the snippet loop adds: SnippetSectionsStep and SnippetSectionsBlocks show they are one five-section block per file with a snippet, in order |
| Report.SnippetSectionsBlocks | src/lokal_agent/core/agent/real_agent.py:80-87 | the snippet sections are one five-section block per file with a snippet, in index order, and nothing else |
| Report.ReportSections | src/lokal_agent/core/agent/real_agent.py:58-92 | the whole `sections` list: ReportLayout shows it is the header, the snippet blocks and the closing sections |
| Report.ReportLayout | src/lokal_agent/core/agent/real_agent.py:56-94 | the report is the fixed header, then exactly the snippet blocks, then the fixed closing sections |
| Report.JoinEndsWithEmpty | src/lokal_agent/core/agent/real_agent.py:92-94 | joining sections whose last one is empty ends with a line break |
| Report.ReportEndsWithNewline | src/lokal_agent/core/agent/real_agent.py:89-94 | the report ends with a line break |

## Findings

| source | as written | input that shows it | evidently intended | confidence | as-written member | corrected member |
|---|---|---|---|---|---|---|
| src/lokal_agent/core/agent/protocol.py:38-41 | only `json.JSONDecodeError` is caught around `json.loads`; any other exception the parser raises escapes `try_extract_final_report` | `FINAL_REPORT`, a json fence, and the group `{"a":` followed by 100000 `[`, 100000 `]` and `}` (a `RecursionError`); or a group holding an integer literal of 5000 digits (a `ValueError` on Python 3.11 and later) | every failure to read the block gives `None`, as the `Optional` result and the catch-all around validation suggest | medium, not executed | Protocol.AsWrittenRaises | Protocol.ParseFailureIsNone |

## Left out

- The filesystem is an input. The model has no `os.walk` order of its own, no `stat`, no `resolve` and no UTF-8 decoding; walk entries carry their size and decoded content. Paths are POSIX, `/`-separated and case-sensitive.
- Indexer.LowerAscii: only ASCII letters are lowered, where `str.lower()` lowers all of Unicode. For membership in the allow-list the two agree, because every allow-listed suffix is ASCII and the only non-ASCII characters that lower to ASCII letters are U+0130 (to `i` plus a combining dot, which no suffix holds) and U+212A (to `k`, which no suffix holds). Unicode lowering itself is not modelled, so this agreement is argued, not proved.
- Indexer.Suffix follows `pathlib` before Python 3.14. From 3.14 on, a name ending in a dot has that dot as its suffix (`Path("a.").suffix == "."`); that behaviour is not modelled.
- Indexer.BuildIndexFailsOnlyOnDotPy: a failed stat in the tier-one probe (`cand.exists() and cand.is_file()`) counts as "not there". In pathlib as of Python 3.12, `Path.exists` and `Path.is_file` re-raise an `OSError` other than a missing entry (a `PermissionError` on a root that can be read but not searched, say), and `build_index` then raises; that failure is not modelled.
- `Path.relative_to` never fails in the preview and the snippet loop, because every scanned or selected entry lies below the root. The `except` at indexer.py lines 153-154 is therefore not modelled.
- `json.loads` is the parameter `parse`; no JSON grammar is modelled. JSON floats are left out of `Json`, and so is pydantic's lax acceptance of `0.0` and `1.0` for `done`. The parser's exceptions are reduced to two kinds: a `JSONDecodeError`, and any other.
- Pydantic's lax coercion is modelled only for `done` (booleans, the integers 0 and 1, and the usual words). String fields accept only strings. Validation runs in pydantic's Python mode, where a `str` field also accepts `bytes`; `json.loads` never yields bytes, so only strings reach it.
- The error messages of the TaskSpec check carry the quoted text, not Python's `repr` of it and not the text of the JSON exception.
- `TaskSpec.NotAnObject` stands for the `AttributeError` that `data.get` raises on a parsed value that is not an object. Real `json.loads` of a text starting with `{` always gives an object, so that case cannot happen there.
- `respond_text` and the OpenAI client (the call that produces the reply) are not part of this model; the reply is an input.
- `RealLocalAgent.run` is not part of this model: directory creation, the report file write, the file name and the hard-coded `next_steps`.
- `runner.py`, `db.py`, `models.py`, `main.py`, `app.py`, `config.py` and `compile_plan.py` are not part of this model; they are orchestration, persistence, HTTP, UI and configuration.
- `idx.tree_preview or ""` is the preview itself, because the preview is always a string.
- Python's sort is a library call. It is modelled by a stable insertion sort, `Seqs.SortBy`, whose result any stable sort by the same key equals.
- The sort key `10**12` of a text file that vanished after the scan is modelled (`MissingSizeKey`). It cannot be reached here, because the filesystem does not change during a call.
- Indexer.BuildIndex: `max_snippet_chars` and `important_limit` are natural numbers. Negative values, which Python would accept as slice bounds, are not modelled.
- Indexer.MakeImportant: the same restriction on `max_snippet_chars`.
- Report.RenderReport: the nineteen fixed sections before the snippet loop and the four after it are each added as one list value rather than by nineteen and four appends. The resulting list is the same.

=== FILE: indexer.dfy ===
/** The bounded project indexer: walk a directory tree under file and byte
    budgets, pick a handful of "important" files by a three-tier heuristic,
    read truncated snippets of them, and list the scanned paths.

    The filesystem is an input. `tree` is what `os.walk` would report below
    the root, in walk order: one `FileEntry` per non-directory name, with the
    chain of directory names leading to it. `listing` is what lies directly
    under the root (files and directories alike), used by the name lookups
    and the `*.py` glob. A stat that fails is a `size` of `None`; a read that
    fails is a `content` of `None`; `content` is the already-decoded text. */
module Indexer {
  import opened Wrappers
  import opened Text
  import opened Seqs

  const DefaultExcludeDirs: set<string> := {
    ".git", ".hg", ".svn", ".venv", "venv", "__pycache__", ".mypy_cache",
    ".pytest_cache", "node_modules", "dist", "build", ".idea", ".vscode", "data"
  }

  const DefaultTextExts: set<string> := {
    ".py", ".md", ".txt", ".toml", ".yaml", ".yml", ".json", ".ini", ".cfg",
    ".env", ".gitignore", ".js", ".ts", ".tsx", ".jsx", ".html", ".css",
    ".sql", ".sh", ".ps1"
  }

  const PreferredNames: seq<string> := [
    "README.md", "README.txt", "pyproject.toml", "requirements.txt",
    "package.json", "Dockerfile", "docker-compose.yml", ".env", ".env.example",
    "main.py", "app.py"
  ]

  /** Extensionless files below this many bytes count as text. */
  const ExtensionlessTextLimit: nat := 200_000
  const TruncationMarker: string := "\n…(truncated)…"
  /** At most this many top-level `*.py` files enter the second tier. */
  const RootSourceLimit: nat := 6
  /** Sort key of a text file that no longer exists. */
  const MissingSizeKey: nat := 1_000_000_000_000
  const TreePreviewLines: nat := 120

  datatype FileEntry = FileEntry(
    dirs: seq<string>,
    name: string,
    isFile: bool,
    size: Option<nat>,
    content: Option<string>)
  {
    /** The path relative to the root, `/`-separated. */
    function Path(): string {
      Join(dirs + [name], "/")
    }
  }

  datatype IndexedFile = IndexedFile(path: string, size: nat, snippet: string)

  datatype ProjectIndex = ProjectIndex(
    root: string,
    fileCount: nat,
    totalBytes: nat,
    important: seq<IndexedFile>,
    treePreview: string)

  /** The stat inside the text check raised for the file at `path`. */
  datatype IndexError = ProbeFailed(path: string)

  // ---------------------------------------------------------------------------
  // Text detection and snippet reading

  /** `name.rfind('.')`, or -1. */
  function LastDot(name: string): (i: int)
    ensures -1 <= i < |name|
    ensures i >= 0 ==> name[i] == '.'
    ensures forall k :: i < k < |name| ==> name[k] != '.'
  {
    if name == [] then -1
    else if name[|name| - 1] == '.' then |name| - 1
    else LastDot(name[..|name| - 1])
  }

  /** `Path(name).suffix`: from the last dot on, unless that dot is the first
      or the last character of the name. */
  function Suffix(name: string): (r: string)
    ensures r == [] || (|r| >= 2 && r[0] == '.' && '.' !in r[1..] && |r| < |name| && r == name[|name| - |r|..])
    ensures (exists i :: 0 < i < |name| - 1 && name[i] == '.' && '.' !in name[i + 1..]) ==> r != []
  {
    var i := LastDot(name);
    if 0 < i < |name| - 1 then name[i..] else ""
  }

  /** `str.lower()` on ASCII letters only. For membership in the allow-list
      this gives the same answer as Python's full Unicode lowering: every
      allow-listed suffix is ASCII, and the only non-ASCII characters that
      lower to an ASCII letter are U+0130 (to `i` and a combining dot, which
      no suffix holds) and U+212A (to `k`, which no suffix holds). */
  function LowerAscii(s: string): (r: string)
    ensures |r| == |s|
    ensures forall i :: 0 <= i < |s| ==> r[i] == (if 'A' <= s[i] <= 'Z' then (s[i] as int + 32) as char else s[i])
  {
    if s == [] then []
    else [if 'A' <= s[0] <= 'Z' then (s[0] as int + 32) as char else s[0]] + LowerAscii(s[1..])
  }

  predicate HasTextExtension(name: string) {
    LowerAscii(Suffix(name)) in DefaultTextExts
  }

  /** `_is_probably_text`: an allow-listed extension, or no extension and a
      size under the limit. Looking up that size can raise. */
  function ProbablyText(e: FileEntry): Result<bool, IndexError> {
    if HasTextExtension(e.name) then Ok(true)
    else if Suffix(e.name) != "" then Ok(false)
    else match e.size
      case None => Err(ProbeFailed(e.Path()))
      case Some(s) => Ok(s < ExtensionlessTextLimit)
  }

  /** The two ways a file counts as text, and the one way the check raises. */
  lemma ProbablyTextIff(e: FileEntry)
    ensures ProbablyText(e) == Ok(true) <==>
      HasTextExtension(e.name) || (Suffix(e.name) == "" && e.size.Some? && e.size.value < ExtensionlessTextLimit)
    ensures ProbablyText(e).Err? <==> !HasTextExtension(e.name) && Suffix(e.name) == "" && e.size.None?
  {
    if Suffix(e.name) == "" {
      NoSuffixNotAllowListed(e.name);
    }
  }

  /** A name whose only dot is its first character has no suffix. */
  lemma LeadingDotOnlyIsNoSuffix(name: string)
    requires name != [] && name[0] == '.' && '.' !in name[1..]
    ensures Suffix(name) == ""
  {
    assert LastDot(name) == 0;
  }

  lemma AllowListLengths()
    ensures forall x :: x in DefaultTextExts ==> 3 <= |x| <= 5 || |x| == 10
  {
  }

  /** A name without a suffix is never on the extension allow-list. */
  lemma NoSuffixNotAllowListed(name: string)
    requires Suffix(name) == ""
    ensures !HasTextExtension(name)
  {
    assert LowerAscii("") == "";
    AllowListLengths();
  }

  /** Without a suffix, only the size decides, and a failed stat raises. */
  lemma NoSuffixBySize(e: FileEntry)
    requires Suffix(e.name) == ""
    ensures ProbablyText(e) == (if e.size.Some? then Ok(e.size.value < ExtensionlessTextLimit) else Err(ProbeFailed(e.Path())))
  {
    NoSuffixNotAllowListed(e.name);
  }

  /** `.env` and `.gitignore` have no suffix, so their entries in the
      extension allow-list never match them: they are text only by the
      extensionless rule. */
  lemma DotfilesAreExtensionless(e: FileEntry)
    requires e.name == ".env" || e.name == ".gitignore"
    ensures Suffix(e.name) == ""
    ensures ProbablyText(e) == (if e.size.Some? then Ok(e.size.value < ExtensionlessTextLimit) else Err(ProbeFailed(e.Path())))
  {
    LeadingDotOnlyIsNoSuffix(e.name);
    NoSuffixBySize(e);
  }

  lemma EnvExampleSuffix(name: string)
    requires name == ".env.example"
    ensures Suffix(name) == ".example"
  {
    assert name[4] == '.' && '.' !in name[5..];
    assert LastDot(name) == 4;
    assert name[4..] == ".example";
  }

  lemma ExampleNotAllowListed(name: string)
    requires Suffix(name) == ".example"
    ensures !HasTextExtension(name) && Suffix(name) != ""
  {
    assert |LowerAscii(Suffix(name))| == 8;
    AllowListLengths();
  }

  /** `.env.example` is a preferred name, but its suffix `.example` is not on
      the allow-list, so it is never text and never gets a snippet. */
  lemma EnvExampleIsNeverText(e: FileEntry)
    requires e.name == ".env.example"
    ensures ProbablyText(e) == Ok(false)
  {
    EnvExampleSuffix(e.name);
    ExampleNotAllowListed(e.name);
  }

  /** `text.replace("\r\n", "\n")`, scanning left to right. */
  function NormalizeNewlines(s: string): string {
    if |s| >= 2 && s[0] == '\r' && s[1] == '\n' then "\n" + NormalizeNewlines(s[2..])
    else if s == [] then []
    else [s[0]] + NormalizeNewlines(s[1..])
  }

  function DropCarriageReturns(s: string): string {
    if s == [] then [] else (if s[0] == '\r' then [] else [s[0]]) + DropCarriageReturns(s[1..])
  }

  function CountCrLf(s: string): nat {
    if |s| >= 2 && s[0] == '\r' && s[1] == '\n' then 1 + CountCrLf(s[2..])
    else if s == [] then 0
    else CountCrLf(s[1..])
  }

  lemma {:induction false} NormalizeKeepsNonCr(s: string)
    ensures DropCarriageReturns(NormalizeNewlines(s)) == DropCarriageReturns(s)
  {
    if |s| >= 2 && s[0] == '\r' && s[1] == '\n' {
      NormalizeKeepsNonCr(s[2..]);
      assert DropCarriageReturns(s) == DropCarriageReturns(s[1..]);
      assert s[1..][1..] == s[2..];
      assert ("\n" + NormalizeNewlines(s[2..]))[1..] == NormalizeNewlines(s[2..]);
    } else if s != [] {
      NormalizeKeepsNonCr(s[1..]);
      assert ([s[0]] + NormalizeNewlines(s[1..]))[1..] == NormalizeNewlines(s[1..]);
    }
  }

  lemma {:induction false} NormalizeLength(s: string)
    ensures |NormalizeNewlines(s)| == |s| - CountCrLf(s)
    ensures CountCrLf(s) == 0 ==> NormalizeNewlines(s) == s
  {
    if |s| >= 2 && s[0] == '\r' && s[1] == '\n' {
      NormalizeLength(s[2..]);
    } else if s != [] {
      NormalizeLength(s[1..]);
      assert [s[0]] + s[1..] == s;
    }
  }

  /** Normalising only drops carriage returns, exactly one per `\r\n` pair,
      and leaves text without such a pair alone. */
  lemma NormalizeNewlinesSpec(s: string)
    ensures DropCarriageReturns(NormalizeNewlines(s)) == DropCarriageReturns(s)
    ensures |NormalizeNewlines(s)| == |s| - CountCrLf(s)
    ensures CountCrLf(s) == 0 ==> NormalizeNewlines(s) == s
  {
    NormalizeKeepsNonCr(s);
    NormalizeLength(s);
  }

  /** `_safe_read_text`: a failed read gives the empty string; otherwise the
      text with normalised line ends, cut to `maxChars` characters plus the
      truncation marker when it is longer. */
  function SafeReadText(content: Option<string>, maxChars: nat): (r: string)
    ensures |r| <= maxChars + |TruncationMarker|
    ensures content.None? ==> r == ""
    ensures content.Some? && |NormalizeNewlines(content.value)| <= maxChars ==>
      r == NormalizeNewlines(content.value)
    ensures content.Some? && |NormalizeNewlines(content.value)| > maxChars ==>
      r == NormalizeNewlines(content.value)[..maxChars] + TruncationMarker
  {
    match content
    case None => ""
    case Some(text) =>
      var data := NormalizeNewlines(text);
      if |data| > maxChars then data[..maxChars] + TruncationMarker else data
  }

  // ---------------------------------------------------------------------------
  // The walk and the budgeted scan

  /** `exclude_dirs or set(DEFAULT_EXCLUDE_DIRS)`: a missing or empty set falls
      back to the defaults. */
  function EffectiveExclude(excludeDirs: Option<set<string>>): (r: set<string>)
    ensures excludeDirs.Some? && excludeDirs.value != {} ==> r == excludeDirs.value
    ensures excludeDirs.None? || excludeDirs.value == {} ==> r == DefaultExcludeDirs
  {
    match excludeDirs
    case Some(dirs) => if dirs == {} then DefaultExcludeDirs else dirs
    case None => DefaultExcludeDirs
  }

  /** None of the directories on the way from the root to `e` is excluded. */
  predicate NotPruned(e: FileEntry, exclude: set<string>) {
    forall i :: 0 <= i < |e.dirs| ==> e.dirs[i] !in exclude
  }

  /** `_walk_files`: the walk with every excluded directory pruned at every
      depth. Files directly under the root have no directory to prune. */
  function WalkFiles(tree: seq<FileEntry>, exclude: set<string>): (r: seq<FileEntry>)
    ensures IsSubseq(r, tree)
    ensures forall e :: e in r ==> NotPruned(e, exclude)
    ensures forall e :: e in tree && NotPruned(e, exclude) ==> e in r
  {
    if tree == [] then []
    else
      var last := tree[|tree| - 1];
      var prev := WalkFiles(tree[..|tree| - 1], exclude);
      assert tree == tree[..|tree| - 1] + [last];
      if NotPruned(last, exclude) then
        SubseqTake(prev, tree[..|tree| - 1], last);
        prev + [last]
      else
        SubseqSkip(prev, tree[..|tree| - 1], last);
        prev
  }

  function SizeOf(e: FileEntry): nat {
    e.size.GetOr(0)
  }

  function TotalSize(fs: seq<FileEntry>): nat {
    if fs == [] then 0 else SizeOf(fs[0]) + TotalSize(fs[1..])
  }

  lemma {:induction false} TotalSizeAppend(fs: seq<FileEntry>, e: FileEntry)
    ensures TotalSize(fs + [e]) == TotalSize(fs) + SizeOf(e)
  {
    if fs != [] {
      TotalSizeAppend(fs[1..], e);
      assert (fs + [e])[1..] == fs[1..] + [e];
    }
  }

  /** The walk's entries whose stat succeeds, in order. */
  function StatOk(walk: seq<FileEntry>): seq<FileEntry> {
    if walk == [] then []
    else (if walk[0].size.Some? then [walk[0]] else []) + StatOk(walk[1..])
  }

  predicate CapReached(count: int, total: int, maxFiles: int, maxTotalBytes: int) {
    count >= maxFiles || total >= maxTotalBytes
  }

  /** What the scan loop appends to `files` from `walk` on, when `count` files
      of `total` bytes are already counted. */
  function ScanFrom(walk: seq<FileEntry>, maxFiles: int, maxTotalBytes: int, count: nat, total: nat): seq<FileEntry> {
    if walk == [] then []
    else match walk[0].size
      case None => ScanFrom(walk[1..], maxFiles, maxTotalBytes, count, total)
      case Some(size) =>
        if CapReached(count + 1, total + size, maxFiles, maxTotalBytes) then [walk[0]]
        else [walk[0]] + ScanFrom(walk[1..], maxFiles, maxTotalBytes, count + 1, total + size)
  }

  /** The files the scan keeps. */
  function Scanned(walk: seq<FileEntry>, maxFiles: int, maxTotalBytes: int): seq<FileEntry> {
    ScanFrom(walk, maxFiles, maxTotalBytes, 0, 0)
  }

  /** What the scan promises, stated without its loop: `files` is a prefix of
      the stat-able entries; no shorter prefix reached a cap; and it stops
      short of the end only right after the file that reached a cap. */
  ghost predicate IsScanOf(walk: seq<FileEntry>, maxFiles: int, maxTotalBytes: int, files: seq<FileEntry>) {
    && |files| <= |StatOk(walk)| && files == StatOk(walk)[..|files|]
    && (forall k :: 0 < k < |files| ==> !CapReached(k, TotalSize(files[..k]), maxFiles, maxTotalBytes))
    && (|files| < |StatOk(walk)| ==> |files| > 0 && CapReached(|files|, TotalSize(files), maxFiles, maxTotalBytes))
  }

  /** The scan keeps a prefix of the stat-able entries. */
  lemma {:induction false} ScanFromPrefix(walk: seq<FileEntry>, maxFiles: int, maxTotalBytes: int, count: nat, total: nat)
    ensures var s := ScanFrom(walk, maxFiles, maxTotalBytes, count, total);
      |s| <= |StatOk(walk)| && s == StatOk(walk)[..|s|]
  {
    if walk != [] {
      ScanFromPrefix(walk[1..], maxFiles, maxTotalBytes, count, total);
      if walk[0].size.Some? {
        var size := walk[0].size.value;
        ScanFromPrefix(walk[1..], maxFiles, maxTotalBytes, count + 1, total + size);
        assert StatOk(walk) == [walk[0]] + StatOk(walk[1..]);
      }
    }
  }

  /** No proper prefix of `s`, counted on top of `count` files of `total`
      bytes, reached a cap. */
  predicate UnderCaps(s: seq<FileEntry>, maxFiles: int, maxTotalBytes: int, count: nat, total: nat) {
    forall k :: 0 < k < |s| ==> !CapReached(count + k, total + TotalSize(s[..k]), maxFiles, maxTotalBytes)
  }

  lemma UnderCapsCons(e: FileEntry, t: seq<FileEntry>, maxFiles: int, maxTotalBytes: int, count: nat, total: nat)
    requires e.size.Some? && !CapReached(count + 1, total + e.size.value, maxFiles, maxTotalBytes)
    requires UnderCaps(t, maxFiles, maxTotalBytes, count + 1, total + e.size.value)
    ensures UnderCaps([e] + t, maxFiles, maxTotalBytes, count, total)
  {
    var s := [e] + t;
    forall k | 0 < k < |s|
      ensures !CapReached(count + k, total + TotalSize(s[..k]), maxFiles, maxTotalBytes)
    {
      assert s[..k][1..] == t[..k - 1];
      assert TotalSize(s[..k]) == e.size.value + TotalSize(t[..k - 1]);
    }
  }

  /** No file before the last kept one reached a cap. */
  lemma {:induction false} ScanFromUnderCaps(walk: seq<FileEntry>, maxFiles: int, maxTotalBytes: int, count: nat, total: nat)
    ensures UnderCaps(ScanFrom(walk, maxFiles, maxTotalBytes, count, total), maxFiles, maxTotalBytes, count, total)
  {
    if walk != [] {
      match walk[0].size
      case None =>
        ScanFromUnderCaps(walk[1..], maxFiles, maxTotalBytes, count, total);
      case Some(size) =>
        if !CapReached(count + 1, total + size, maxFiles, maxTotalBytes) {
          ScanFromUnderCaps(walk[1..], maxFiles, maxTotalBytes, count + 1, total + size);
          UnderCapsCons(walk[0], ScanFrom(walk[1..], maxFiles, maxTotalBytes, count + 1, total + size),
                        maxFiles, maxTotalBytes, count, total);
        }
    }
  }

  /** The scan stops short of the stat-able entries only right after a file
      that reached a cap. */
  lemma {:induction false} ScanFromStopsAtCap(walk: seq<FileEntry>, maxFiles: int, maxTotalBytes: int, count: nat, total: nat)
    ensures var s := ScanFrom(walk, maxFiles, maxTotalBytes, count, total);
      |s| < |StatOk(walk)| ==> |s| > 0 && CapReached(count + |s|, total + TotalSize(s), maxFiles, maxTotalBytes)
  {
    if walk != [] {
      match walk[0].size
      case None =>
        ScanFromStopsAtCap(walk[1..], maxFiles, maxTotalBytes, count, total);
      case Some(size) =>
        var s := ScanFrom(walk, maxFiles, maxTotalBytes, count, total);
        assert StatOk(walk) == [walk[0]] + StatOk(walk[1..]);
        if CapReached(count + 1, total + size, maxFiles, maxTotalBytes) {
          assert TotalSize(s) == size;
        } else {
          var t := ScanFrom(walk[1..], maxFiles, maxTotalBytes, count + 1, total + size);
          ScanFromStopsAtCap(walk[1..], maxFiles, maxTotalBytes, count + 1, total + size);
          assert s[1..] == t;
        }
    }
  }

  /** The scan does what it promises: `Scanned` meets `IsScanOf`. */
  lemma ScannedIsScan(walk: seq<FileEntry>, maxFiles: int, maxTotalBytes: int)
    ensures IsScanOf(walk, maxFiles, maxTotalBytes, Scanned(walk, maxFiles, maxTotalBytes))
  {
    ScanFromPrefix(walk, maxFiles, maxTotalBytes, 0, 0);
    ScanFromUnderCaps(walk, maxFiles, maxTotalBytes, 0, 0);
    ScanFromStopsAtCap(walk, maxFiles, maxTotalBytes, 0, 0);
  }

  /** `IsScanOf` leaves no choice: there is one scan result per walk and caps. */
  lemma ScanIsUnique(walk: seq<FileEntry>, maxFiles: int, maxTotalBytes: int, f1: seq<FileEntry>, f2: seq<FileEntry>)
    requires IsScanOf(walk, maxFiles, maxTotalBytes, f1) && IsScanOf(walk, maxFiles, maxTotalBytes, f2)
    ensures f1 == f2
  {
    var m := if |f1| < |f2| then |f1| else |f2|;
    assert f1[..|f1|] == f1 && f2[..|f2|] == f2;
    assert f1[..m] == f2[..m];
    assert TotalSize(f1[..m]) == TotalSize(f2[..m]);
  }

  /** The budgets hold up to the one file that crossed them: never more than
      `maxFiles` files (for a positive cap), and the files before the last one
      stayed under the byte cap. Every counted file was stat-able. */
  lemma ScanBounds(walk: seq<FileEntry>, maxFiles: int, maxTotalBytes: int)
    ensures var s := Scanned(walk, maxFiles, maxTotalBytes);
      && (maxFiles >= 1 ==> |s| <= maxFiles)
      && (|s| >= 2 ==> TotalSize(s[..|s| - 1]) < maxTotalBytes)
      && (forall e :: e in s ==> e.size.Some?)
  {
    var s := Scanned(walk, maxFiles, maxTotalBytes);
    ScannedIsScan(walk, maxFiles, maxTotalBytes);
    var m := if 0 <= maxFiles < |s| then maxFiles else |s|;
    ghost var t := TotalSize(s[..m]);
    StatOkHasSizes(walk);
    forall e | e in s ensures e.size.Some? {
      var i :| 0 <= i < |s| && s[i] == e;
      assert StatOk(walk)[i] == e;
    }
  }

  lemma {:induction false} StatOkHasSizes(walk: seq<FileEntry>)
    ensures forall e :: e in StatOk(walk) ==> e.size.Some?
  {
    if walk != [] {
      StatOkHasSizes(walk[1..]);
    }
  }

  lemma ScanFromStep(walk: seq<FileEntry>, i: nat, maxFiles: int, maxTotalBytes: int, count: nat, total: nat)
    requires i < |walk|
    ensures ScanFrom(walk[i..], maxFiles, maxTotalBytes, count, total)
         == match walk[i].size
            case None => ScanFrom(walk[i + 1..], maxFiles, maxTotalBytes, count, total)
            case Some(size) =>
              if CapReached(count + 1, total + size, maxFiles, maxTotalBytes) then [walk[i]]
              else [walk[i]] + ScanFrom(walk[i + 1..], maxFiles, maxTotalBytes, count + 1, total + size)
  {
    assert walk[i..][1..] == walk[i + 1..];
  }

  /** The scan loop of `build_index`. */
  method Scan(walk: seq<FileEntry>, maxFiles: int, maxTotalBytes: int)
    returns (fileCount: nat, totalBytes: nat, files: seq<FileEntry>)
    ensures files == Scanned(walk, maxFiles, maxTotalBytes)
    ensures fileCount == |files| && totalBytes == TotalSize(files)
  {
    fileCount, totalBytes, files := 0, 0, [];
    var i := 0;
    while i < |walk|
      invariant 0 <= i <= |walk|
      invariant fileCount == |files| && totalBytes == TotalSize(files)
      invariant files + ScanFrom(walk[i..], maxFiles, maxTotalBytes, fileCount, totalBytes)
             == Scanned(walk, maxFiles, maxTotalBytes)
    {
      var p := walk[i];
      ScanFromStep(walk, i, maxFiles, maxTotalBytes, fileCount, totalBytes);
      if p.size.None? {
        // the stat failed: skip the entry
        i := i + 1;
        continue;
      }
      var size := p.size.value;
      TotalSizeAppend(files, p);
      fileCount := fileCount + 1;
      totalBytes := totalBytes + size;
      files := files + [p];
      if fileCount >= maxFiles || totalBytes >= maxTotalBytes {
        break;
      }
      i := i + 1;
    }
  }

  // ---------------------------------------------------------------------------
  // The three tiers of important files

  /** The relative paths of a list of entries. */
  function PathsOf(s: seq<FileEntry>): (r: seq<string>)
    ensures |r| == |s| && forall i :: 0 <= i < |s| ==> r[i] == s[i].Path()
  {
    seq(|s|, i requires 0 <= i < |s| => s[i].Path())
  }

  lemma PathsOfAppend(s: seq<FileEntry>, x: FileEntry)
    ensures PathsOf(s + [x]) == PathsOf(s) + [x.Path()]
  {
  }

  lemma PathsOfPrefix(s: seq<FileEntry>, i: nat)
    requires i < |s|
    ensures PathsOf(s[..i + 1]) == PathsOf(s[..i]) + [s[i].Path()]
  {
    assert s[..i + 1] == s[..i] + [s[i]];
    PathsOfAppend(s[..i], s[i]);
  }

  /** The entry seen as `root / name`. */
  function AtRoot(e: FileEntry): (r: FileEntry)
    ensures r.Path() == e.name && r.name == e.name && r.isFile == e.isFile && r.size == e.size
  {
    assert [] + [e.name] == [e.name];
    e.(dirs := [])
  }

  /** The entry called `name` directly under the root, if there is one. */
  function LookupRoot(listing: seq<FileEntry>, name: string): (r: Option<FileEntry>)
    ensures r.Some? ==> r.value in listing && r.value.name == name
    ensures r.None? ==> forall e :: e in listing ==> e.name != name
  {
    if listing == [] then None
    else if listing[0].name == name then Some(listing[0])
    else LookupRoot(listing[1..], name)
  }

  /** `(root / name).exists() and (root / name).is_file()` */
  predicate IsRootFile(listing: seq<FileEntry>, name: string) {
    var c := LookupRoot(listing, name);
    c.Some? && c.value.isFile && c.value.size.Some?
  }

  /** Tier one for the names `names`: the ones that exist as files under the
      root, in the order of `names`. */
  function PreferredFound(listing: seq<FileEntry>, names: seq<string>): seq<FileEntry>
    decreases |names|
  {
    if names == [] then []
    else
      var prev := PreferredFound(listing, names[..|names| - 1]);
      var name := names[|names| - 1];
      if IsRootFile(listing, name) then prev + [AtRoot(LookupRoot(listing, name).value)] else prev
  }

  function Tier1(listing: seq<FileEntry>): seq<FileEntry> {
    PreferredFound(listing, PreferredNames)
  }

  /** Tier one lists root files, by their preferred names, in the order of
      `names`. */
  lemma {:induction false} PreferredFoundOrder(listing: seq<FileEntry>, names: seq<string>)
    ensures var t := PreferredFound(listing, names);
      && IsSubseq(PathsOf(t), names)
      && (forall e :: e in t ==> e.dirs == [] && IsRootFile(listing, e.name) && e == AtRoot(LookupRoot(listing, e.name).value))
    decreases |names|
  {
    if names != [] {
      var names', name := names[..|names| - 1], names[|names| - 1];
      var prev := PreferredFound(listing, names');
      PreferredFoundOrder(listing, names');
      assert names == names' + [name];
      if IsRootFile(listing, name) {
        PathsOfAppend(prev, AtRoot(LookupRoot(listing, name).value));
        SubseqTake(PathsOf(prev), names', name);
      } else {
        SubseqSkip(PathsOf(prev), names', name);
      }
    }
  }

  /** Tier one is exact: it lists a preferred name exactly when a file of that
      name exists directly under the root. */
  lemma {:induction false} PreferredFoundExact(listing: seq<FileEntry>, names: seq<string>)
    ensures forall n :: n in names ==> (n in PathsOf(PreferredFound(listing, names)) <==> IsRootFile(listing, n))
    decreases |names|
  {
    if names != [] {
      var names', name := names[..|names| - 1], names[|names| - 1];
      var prev := PreferredFound(listing, names');
      var t := PreferredFound(listing, names);
      PreferredFoundExact(listing, names');
      PreferredFoundOrder(listing, names');
      if IsRootFile(listing, name) {
        PathsOfAppend(prev, AtRoot(LookupRoot(listing, name).value));
      }
      forall n | n in names ensures n in PathsOf(t) <==> IsRootFile(listing, n) {
        if n != name {
          assert n in names' by { assert names == names' + [name]; }
        } else if n in PathsOf(prev) {
          var i :| 0 <= i < |prev| && PathsOf(prev)[i] == n;
          assert prev[i] in prev;
        }
      }
    }
  }

  /** Tier one holds each name at most once when the names are distinct. */
  lemma {:induction false} PreferredFoundDistinct(listing: seq<FileEntry>, names: seq<string>)
    requires Distinct(names)
    ensures Distinct(PathsOf(PreferredFound(listing, names)))
    decreases |names|
  {
    if names != [] {
      var names', name := names[..|names| - 1], names[|names| - 1];
      var prev := PreferredFound(listing, names');
      PreferredFoundDistinct(listing, names');
      PreferredFoundOrder(listing, names');
      if IsRootFile(listing, name) {
        PathsOfAppend(prev, AtRoot(LookupRoot(listing, name).value));
        SubseqMembers(PathsOf(prev), names');
        assert name !in names';
      }
    }
  }

  predicate EndsWith(s: string, suffix: string) {
    |suffix| <= |s| && s[|s| - |suffix|..] == suffix
  }

  /** `root.glob("*.py")`: the root entries whose name ends in `.py`. */
  function RootSources(listing: seq<FileEntry>): (r: seq<FileEntry>)
    ensures forall e :: e in r ==> e.dirs == [] && EndsWith(e.name, ".py")
    ensures forall e :: e in listing && EndsWith(e.name, ".py") ==> AtRoot(e) in r
  {
    if listing == [] then []
    else (if EndsWith(listing[0].name, ".py") then [AtRoot(listing[0])] else []) + RootSources(listing[1..])
  }

  lemma {:induction false} RootSourcesOrigin(listing: seq<FileEntry>, e: FileEntry)
    requires e in RootSources(listing)
    ensures exists x :: x in listing && EndsWith(x.name, ".py") && AtRoot(x) == e
  {
    if AtRoot(listing[0]) != e || !EndsWith(listing[0].name, ".py") {
      RootSourcesOrigin(listing[1..], e);
      var x :| x in listing[1..] && EndsWith(x.name, ".py") && AtRoot(x) == e;
      assert x in listing;
    }
  }

  /** Paths in one directory compare by name. */
  predicate NameLe(a: FileEntry, b: FileEntry) {
    StrLe(a.name, b.name)
  }

  /** `sorted(root.glob("*.py"))[:6]` */
  function Tier2(listing: seq<FileEntry>): seq<FileEntry> {
    Take(SortBy(RootSources(listing), NameLe), RootSourceLimit)
  }

  /** The sort key of the third tier: the size, or 10**12 for a file that has
      gone missing since the scan. */
  function SizeKey(e: FileEntry): nat {
    match e.size
    case Some(s) => s
    case None => MissingSizeKey
  }

  predicate SizeLe(a: FileEntry, b: FileEntry) {
    SizeKey(a) <= SizeKey(b)
  }

  /** `[p for p in files if p.is_file() and _is_probably_text(p)]`, in scan
      order. A text check that would raise counts as "not text" here; that
      cannot happen on scanned files, which all have a size
      (`ScannedTextCheckSucceeds`). */
  function TextFiles(files: seq<FileEntry>): (r: seq<FileEntry>)
    ensures IsSubseq(r, files)
    ensures forall e :: e in r <==> e in files && e.isFile && ProbablyText(e) == Ok(true)
  {
    if files == [] then []
    else
      var last := files[|files| - 1];
      var prev := TextFiles(files[..|files| - 1]);
      assert files == files[..|files| - 1] + [last];
      if last.isFile && ProbablyText(last) == Ok(true) then
        SubseqTake(prev, files[..|files| - 1], last);
        prev + [last]
      else
        SubseqSkip(prev, files[..|files| - 1], last);
        prev
  }

  /** The text check never raises on a scanned file. */
  lemma ScannedTextCheckSucceeds(walk: seq<FileEntry>, maxFiles: int, maxTotalBytes: int)
    ensures forall e :: e in Scanned(walk, maxFiles, maxTotalBytes) ==> ProbablyText(e).Ok?
  {
    ScanBounds(walk, maxFiles, maxTotalBytes);
  }

  /** The text files, smallest first. */
  function Tier3(files: seq<FileEntry>): seq<FileEntry> {
    SortBy(TextFiles(files), SizeLe)
  }

  lemma NameLeTotalPreorder()
    ensures TotalPreorder(NameLe)
  {
    forall a, b ensures NameLe(a, b) || NameLe(b, a) {
      StrLeTotal(a.name, b.name);
    }
    forall a, b, c | NameLe(a, b) && NameLe(b, c) ensures NameLe(a, c) {
      StrLeTrans(a.name, b.name, c.name);
    }
  }

  lemma SizeLeTotalPreorder()
    ensures TotalPreorder(SizeLe)
  {
  }

  /** Tier two holds at most six root `*.py` entries, in name order. */
  lemma Tier2Sorted(listing: seq<FileEntry>)
    ensures var t := Tier2(listing);
      && |t| <= RootSourceLimit
      && SortedBy(t, NameLe)
      && multiset(t) <= multiset(RootSources(listing))
      && (forall e :: e in t ==> e in RootSources(listing) && e.dirs == [] && EndsWith(e.name, ".py"))
  {
    var src := RootSources(listing);
    var s := SortBy(src, NameLe);
    var t := Tier2(listing);
    NameLeTotalPreorder();
    SortBySorted(src, NameLe);
    PrefixMultiset(s, |t|);
    forall e | e in t ensures e in src {
      assert e in multiset(s);
    }
  }

  /** A root `*.py` entry left out of tier two comes after all six that were
      taken: tier two holds the smallest names. */
  lemma Tier2Smallest(listing: seq<FileEntry>, e: FileEntry)
    requires e in RootSources(listing) && e !in Tier2(listing)
    ensures |Tier2(listing)| == RootSourceLimit
    ensures forall x :: x in Tier2(listing) ==> NameLe(x, e)
  {
    var src := RootSources(listing);
    var s := SortBy(src, NameLe);
    var t := Tier2(listing);
    NameLeTotalPreorder();
    SortBySorted(src, NameLe);
    assert e in multiset(s);
    var j :| 0 <= j < |s| && s[j] == e;
    forall x | x in t ensures NameLe(x, e) {
      var i :| 0 <= i < |t| && t[i] == x;
      assert s[i] == x;
    }
  }

  /** Tier three holds exactly the walked text files, smallest first; files of
      equal size keep their walk order. */
  lemma Tier3Facts(files: seq<FileEntry>)
    ensures var t := Tier3(files);
      && SortedBy(t, SizeLe)
      && multiset(t) == multiset(TextFiles(files))
      && (forall k :: KeepEquivalent(t, k, SizeLe) == KeepEquivalent(TextFiles(files), k, SizeLe))
      && (forall e :: e in t <==> e in files && e.isFile && ProbablyText(e) == Ok(true))
  {
    var src := TextFiles(files);
    var t := Tier3(files);
    SizeLeTotalPreorder();
    SortBySorted(src, SizeLe);
    forall k ensures KeepEquivalent(t, k, SizeLe) == KeepEquivalent(src, k, SizeLe) {
      SortByStable(src, k, SizeLe);
    }
    forall e ensures e in t <==> e in src {
      assert e in t <==> e in multiset(t);
      assert e in src <==> e in multiset(src);
    }
  }

  // ---------------------------------------------------------------------------
  // Merging the tiers without duplicates

  /** `if p not in important_paths: important_paths.append(p)` */
  function AddNew(acc: seq<FileEntry>, x: FileEntry): seq<FileEntry> {
    if x.Path() in PathsOf(acc) then acc else acc + [x]
  }

  /** Appends the entries of `xs` whose path is not there yet, in order. */
  function AppendNew(acc: seq<FileEntry>, xs: seq<FileEntry>): seq<FileEntry>
    decreases |xs|
  {
    if xs == [] then acc else AddNew(AppendNew(acc, xs[..|xs| - 1]), xs[|xs| - 1])
  }

  /** The third loop: like `AppendNew`, but it stops as soon as the list holds
      `limit` paths. */
  function FillUpTo(acc: seq<FileEntry>, xs: seq<FileEntry>, limit: nat): seq<FileEntry>
    decreases |xs|
  {
    if xs == [] then acc
    else
      var prev := FillUpTo(acc, xs[..|xs| - 1], limit);
      if |prev| >= limit then prev else AddNew(prev, xs[|xs| - 1])
  }

  /** The ordered candidates before the cut to `important_limit`. */
  function Candidates(listing: seq<FileEntry>, files: seq<FileEntry>, limit: nat): seq<FileEntry> {
    FillUpTo(AppendNew(Tier1(listing), Tier2(listing)), Tier3(files), limit)
  }

  /** `important_paths[:important_limit]` */
  function Selection(listing: seq<FileEntry>, files: seq<FileEntry>, limit: nat): seq<FileEntry> {
    Take(Candidates(listing, files, limit), limit)
  }

  lemma AddNewFacts(acc: seq<FileEntry>, x: FileEntry)
    ensures var r := AddNew(acc, x);
      && (r == acc || (r == acc + [x] && x.Path() !in PathsOf(acc)))
      && x.Path() in PathsOf(r)
      && PathsOf(r)[..|acc|] == PathsOf(acc)
      && (Distinct(PathsOf(acc)) ==> Distinct(PathsOf(r)))
  {
    PathsOfAppend(acc, x);
  }

  /** `AppendNew` keeps what was there and adds entries of `xs` in order. */
  lemma {:induction false} AppendNewExtends(acc: seq<FileEntry>, xs: seq<FileEntry>)
    ensures var r := AppendNew(acc, xs);
      |acc| <= |r| && r[..|acc|] == acc && IsSubseq(r[|acc|..], xs)
    decreases |xs|
  {
    if xs != [] {
      var xs', x := xs[..|xs| - 1], xs[|xs| - 1];
      var prev := AppendNew(acc, xs');
      var r := AppendNew(acc, xs);
      AppendNewExtends(acc, xs');
      assert xs == xs' + [x];
      if r == prev {
        SubseqSkip(prev[|acc|..], xs', x);
      } else {
        assert r[|acc|..] == prev[|acc|..] + [x];
        SubseqTake(prev[|acc|..], xs', x);
      }
    }
  }

  /** After `AppendNew`, every path of `xs` is present. */
  lemma {:induction false} AppendNewCovers(acc: seq<FileEntry>, xs: seq<FileEntry>)
    ensures forall x :: x in xs ==> x.Path() in PathsOf(AppendNew(acc, xs))
    decreases |xs|
  {
    if xs != [] {
      var xs', x := xs[..|xs| - 1], xs[|xs| - 1];
      var prev := AppendNew(acc, xs');
      var r := AppendNew(acc, xs);
      AppendNewCovers(acc, xs');
      AddNewFacts(prev, x);
      forall y | y in xs ensures y.Path() in PathsOf(r) {
        if y != x {
          assert y in xs' by { assert xs == xs' + [x]; }
          var i :| 0 <= i < |prev| && PathsOf(prev)[i] == y.Path();
          assert PathsOf(r)[i] == y.Path();
        }
      }
    }
  }

  /** `AppendNew` never adds a path twice. */
  lemma {:induction false} AppendNewDistinct(acc: seq<FileEntry>, xs: seq<FileEntry>)
    requires Distinct(PathsOf(acc))
    ensures Distinct(PathsOf(AppendNew(acc, xs)))
    decreases |xs|
  {
    if xs != [] {
      AppendNewDistinct(acc, xs[..|xs| - 1]);
      AddNewFacts(AppendNew(acc, xs[..|xs| - 1]), xs[|xs| - 1]);
    }
  }

  /** `FillUpTo` keeps what was there, adds entries of `xs` in order, and
      grows the list to at most `limit` entries. */
  lemma {:induction false} FillUpToExtends(acc: seq<FileEntry>, xs: seq<FileEntry>, limit: nat)
    ensures var r := FillUpTo(acc, xs, limit);
      && |acc| <= |r| && r[..|acc|] == acc
      && IsSubseq(r[|acc|..], xs)
      && |r| <= (if |acc| >= limit then |acc| else limit)
    decreases |xs|
  {
    if xs != [] {
      var xs', x := xs[..|xs| - 1], xs[|xs| - 1];
      var prev := FillUpTo(acc, xs', limit);
      var r := FillUpTo(acc, xs, limit);
      FillUpToExtends(acc, xs', limit);
      assert xs == xs' + [x];
      if r == prev {
        SubseqSkip(prev[|acc|..], xs', x);
      } else {
        assert r[|acc|..] == prev[|acc|..] + [x];
        SubseqTake(prev[|acc|..], xs', x);
      }
    }
  }

  /** If `FillUpTo` stops short of `limit`, every path of `xs` is present. */
  lemma {:induction false} FillUpToCovers(acc: seq<FileEntry>, xs: seq<FileEntry>, limit: nat)
    ensures |FillUpTo(acc, xs, limit)| < limit ==>
      forall x :: x in xs ==> x.Path() in PathsOf(FillUpTo(acc, xs, limit))
    decreases |xs|
  {
    if xs != [] {
      var xs', x := xs[..|xs| - 1], xs[|xs| - 1];
      var prev := FillUpTo(acc, xs', limit);
      var r := FillUpTo(acc, xs, limit);
      FillUpToCovers(acc, xs', limit);
      AddNewFacts(prev, x);
      if |r| < limit {
        assert |prev| < limit;
        forall y | y in xs ensures y.Path() in PathsOf(r) {
          if y != x {
            assert y in xs' by { assert xs == xs' + [x]; }
            var i :| 0 <= i < |prev| && PathsOf(prev)[i] == y.Path();
            assert PathsOf(r)[i] == y.Path();
          }
        }
      }
    }
  }

  /** `FillUpTo` never adds a path twice. */
  lemma {:induction false} FillUpToDistinct(acc: seq<FileEntry>, xs: seq<FileEntry>, limit: nat)
    requires Distinct(PathsOf(acc))
    ensures Distinct(PathsOf(FillUpTo(acc, xs, limit)))
    decreases |xs|
  {
    if xs != [] {
      FillUpToDistinct(acc, xs[..|xs| - 1], limit);
      AddNewFacts(FillUpTo(acc, xs[..|xs| - 1], limit), xs[|xs| - 1]);
    }
  }

  /** Once the list is full, the rest of the third tier changes nothing: the
      loop may `break`. */
  lemma {:induction false} FillSaturated(acc: seq<FileEntry>, xs: seq<FileEntry>, i: nat, limit: nat)
    requires i <= |xs| && |FillUpTo(acc, xs[..i], limit)| >= limit
    ensures FillUpTo(acc, xs, limit) == FillUpTo(acc, xs[..i], limit)
    decreases |xs|
  {
    if i < |xs| {
      var xs' := xs[..|xs| - 1];
      assert xs'[..i] == xs[..i];
      FillSaturated(acc, xs', i, limit);
    } else {
      assert xs[..i] == xs;
    }
  }

  lemma DistinctPreferredNames()
    ensures Distinct(PreferredNames)
  {
  }

  /** The selection holds at most `important_limit` entries and no path
      twice. */
  lemma SelectionWellFormed(listing: seq<FileEntry>, files: seq<FileEntry>, limit: nat)
    ensures var sel := Selection(listing, files, limit);
      |sel| <= limit && Distinct(PathsOf(sel))
  {
    var t1 := Tier1(listing);
    var mid := AppendNew(t1, Tier2(listing));
    var full := Candidates(listing, files, limit);
    var sel := Selection(listing, files, limit);
    DistinctPreferredNames();
    PreferredFoundDistinct(listing, PreferredNames);
    AppendNewDistinct(t1, Tier2(listing));
    FillUpToDistinct(mid, Tier3(files), limit);
    assert PathsOf(sel) == PathsOf(full)[..|sel|];
  }

  /** Merging two lists into `acc` lays them out end to end: all of `acc`,
      then the new entries of `xs` in order, then those of `ys` in order. */
  lemma MergeLayout(acc: seq<FileEntry>, xs: seq<FileEntry>, ys: seq<FileEntry>, limit: nat)
    ensures var mid := |AppendNew(acc, xs)|;
      var full := FillUpTo(AppendNew(acc, xs), ys, limit);
      && |acc| <= mid <= |full|
      && full[..|acc|] == acc
      && IsSubseq(full[|acc|..mid], xs)
      && IsSubseq(full[mid..], ys)
  {
    var mid := AppendNew(acc, xs);
    var full := FillUpTo(mid, ys, limit);
    AppendNewExtends(acc, xs);
    FillUpToExtends(mid, ys, limit);
    assert full[..|mid|] == mid;
    assert full[|acc|..|mid|] == mid[|acc|..];
    assert full[..|acc|] == mid[..|acc|];
  }

  /** The candidates are the tiers laid end to end: all of tier one, then the
      new entries of tier two in their order, then the new entries of tier
      three in their order. */
  lemma CandidatesLayout(listing: seq<FileEntry>, files: seq<FileEntry>, limit: nat)
    ensures var t1, t2, t3 := Tier1(listing), Tier2(listing), Tier3(files);
      var mid := |AppendNew(t1, t2)|;
      var full := Candidates(listing, files, limit);
      && |t1| <= mid <= |full|
      && full[..|t1|] == t1
      && IsSubseq(full[|t1|..mid], t2)
      && IsSubseq(full[mid..], t3)
  {
    MergeLayout(Tier1(listing), Tier2(listing), Tier3(files), limit);
  }

  /** The order within the tiers survives the merge and the cut: the
      selection is a prefix of the candidates, which list the preferred names
      in their fixed order, then at most six new root `*.py` files in name
      order, then new text files by ascending size. */
  lemma SelectionTierOrder(listing: seq<FileEntry>, files: seq<FileEntry>, limit: nat)
    ensures var t1 := Tier1(listing);
      var mid := |AppendNew(t1, Tier2(listing))|;
      var full := Candidates(listing, files, limit);
      var sel := Selection(listing, files, limit);
      && sel == full[..|sel|]
      && |t1| <= mid <= |full| && full[..|t1|] == t1
      && IsSubseq(PathsOf(t1), PreferredNames)
      && mid - |t1| <= RootSourceLimit && SortedBy(full[|t1|..mid], NameLe)
      && SortedBy(full[mid..], SizeLe)
  {
    var t1, t2, t3 := Tier1(listing), Tier2(listing), Tier3(files);
    var mid := |AppendNew(t1, t2)|;
    var full := Candidates(listing, files, limit);
    CandidatesLayout(listing, files, limit);
    PreferredFoundOrder(listing, PreferredNames);
    Tier2Sorted(listing);
    Tier3Facts(files);
    SubseqLength(full[|t1|..mid], t2);
    SubseqKeepsSorted(full[|t1|..mid], t2, NameLe);
    SubseqKeepsSorted(full[mid..], t3, SizeLe);
  }

  /** Nothing is lost while there is room: if fewer than `important_limit`
      candidates were collected, every root `*.py` file of tier two and every
      text file of tier three is among them, and all of them are kept. */
  lemma SelectionComplete(listing: seq<FileEntry>, files: seq<FileEntry>, limit: nat)
    ensures var full := Candidates(listing, files, limit);
      |full| < limit ==>
        && Selection(listing, files, limit) == full
        && (forall e :: e in Tier2(listing) ==> e.Path() in PathsOf(full))
        && (forall e :: e in Tier3(files) ==> e.Path() in PathsOf(full))
  {
    var mid := AppendNew(Tier1(listing), Tier2(listing));
    var full := Candidates(listing, files, limit);
    AppendNewCovers(Tier1(listing), Tier2(listing));
    FillUpToExtends(mid, Tier3(files), limit);
    FillUpToCovers(mid, Tier3(files), limit);
    forall e | e in Tier2(listing) ensures e.Path() in PathsOf(full) {
      var i :| 0 <= i < |mid| && PathsOf(mid)[i] == e.Path();
      assert full[i] == mid[i];
      assert PathsOf(full)[i] == e.Path();
    }
  }

  lemma PreferredFoundStep(listing: seq<FileEntry>, names: seq<string>, i: nat)
    requires i < |names|
    ensures PreferredFound(listing, names[..i + 1])
         == if IsRootFile(listing, names[i])
            then PreferredFound(listing, names[..i]) + [AtRoot(LookupRoot(listing, names[i]).value)]
            else PreferredFound(listing, names[..i])
  {
    assert names[..i + 1][..i] == names[..i];
  }

  lemma AppendNewStep(acc: seq<FileEntry>, xs: seq<FileEntry>, i: nat)
    requires i < |xs|
    ensures AppendNew(acc, xs[..i + 1]) == AddNew(AppendNew(acc, xs[..i]), xs[i])
  {
    assert xs[..i + 1][..i] == xs[..i];
  }

  lemma FillUpToStep(acc: seq<FileEntry>, xs: seq<FileEntry>, i: nat, limit: nat)
    requires i < |xs| && |FillUpTo(acc, xs[..i], limit)| < limit
    ensures FillUpTo(acc, xs[..i + 1], limit) == AddNew(FillUpTo(acc, xs[..i], limit), xs[i])
  {
    assert xs[..i + 1][..i] == xs[..i];
  }

  /** Lines 100-126 of `build_index`: the three loops that fill
      `important_paths`. */
  method SelectImportant(listing: seq<FileEntry>, files: seq<FileEntry>, limit: nat)
    returns (paths: seq<FileEntry>)
    ensures paths == Candidates(listing, files, limit)
  {
    // 1) exact preferred names near the root
    paths := [];
    for i := 0 to |PreferredNames|
      invariant paths == PreferredFound(listing, PreferredNames[..i])
    {
      var name := PreferredNames[i];
      var cand := LookupRoot(listing, name);
      PreferredFoundStep(listing, PreferredNames, i);
      if cand.Some? && cand.value.isFile && cand.value.size.Some? {
        paths := paths + [AtRoot(cand.value)];
      }
    }
    assert PreferredNames[..|PreferredNames|] == PreferredNames;
    var tier1 := paths;

    // 2) top-level Python files, at most six
    var sources := Tier2(listing);
    for i := 0 to |sources|
      invariant paths == AppendNew(tier1, sources[..i])
    {
      var p := sources[i];
      AppendNewStep(tier1, sources, i);
      if p.Path() !in PathsOf(paths) {
        paths := paths + [p];
      }
    }
    assert sources[..|sources|] == sources;
    var head := paths;

    // 3) the smallest text files, until the list is full
    var textFiles := TextFiles(files);
    textFiles := SortBy(textFiles, SizeLe);
    var i := 0;
    while i < |textFiles|
      invariant 0 <= i <= |textFiles|
      invariant paths == FillUpTo(head, textFiles[..i], limit)
    {
      if |paths| >= limit {
        FillSaturated(head, textFiles, i, limit);
        return;
      }
      var p := textFiles[i];
      FillUpToStep(head, textFiles, i, limit);
      if p.Path() !in PathsOf(paths) {
        paths := paths + [p];
      }
      i := i + 1;
    }
    assert textFiles[..i] == textFiles;
  }

  // ---------------------------------------------------------------------------
  // Snippets of the selected files

  /** One pass of the loop at lines 129-135: the size (0 when the stat
      fails), and a snippet when the file looks like text. The text check is
      outside the `try`, so its stat failure propagates. */
  function IndexFile(e: FileEntry, maxSnippetChars: nat): Result<IndexedFile, IndexError> {
    var size := SizeOf(e);
    match ProbablyText(e)
    case Err(err) => Err(err)
    case Ok(isText) =>
      Ok(IndexedFile(e.Path(), size, if isText then SafeReadText(e.content, maxSnippetChars) else ""))
  }

  /** A selected file is described by its path and its stat size (0 when the
      stat fails), with a snippet within the budget that is empty when the
      file is not text or cannot be read. Only the text check can fail, and
      only for a file without a suffix whose stat fails. */
  lemma IndexFileFacts(e: FileEntry, maxSnippetChars: nat)
    ensures var r := IndexFile(e, maxSnippetChars);
      && (r.Err? <==> !HasTextExtension(e.name) && Suffix(e.name) == "" && e.size.None?)
      && (r.Err? ==> r.error == ProbeFailed(e.Path()))
      && (r.Ok? ==> && r.value.path == e.Path()
                    && r.value.size == SizeOf(e)
                    && r.value.size == (if e.size.Some? then e.size.value else 0)
                    && (ProbablyText(e) == Ok(true) ==> r.value.snippet == SafeReadText(e.content, maxSnippetChars))
                    && |r.value.snippet| <= maxSnippetChars + |TruncationMarker|
                    && (ProbablyText(e) == Ok(false) || e.content.None? ==> r.value.snippet == ""))
  {
    ProbablyTextIff(e);
  }

  /** The loop over the selection: an entry per selected file, in order, or
      the first failure. */
  function IndexFiles(sel: seq<FileEntry>, maxSnippetChars: nat): Result<seq<IndexedFile>, IndexError> {
    MapUntilErr(e => IndexFile(e, maxSnippetChars), sel)
  }

  /** A successful pass over the selection describes each selected file, in
      order, as `IndexFileFacts` says; distinct selected paths give distinct
      entries. */
  lemma IndexFilesFacts(sel: seq<FileEntry>, maxSnippetChars: nat)
    requires IndexFiles(sel, maxSnippetChars).Ok?
    ensures var out := IndexFiles(sel, maxSnippetChars).value;
      && |out| == |sel|
      && (forall i :: 0 <= i < |sel| ==>
            && out[i].path == sel[i].Path()
            && out[i].size == SizeOf(sel[i])
            && (sel[i].size.None? ==> out[i].size == 0)
            && (ProbablyText(sel[i]) == Ok(true) ==> out[i].snippet == SafeReadText(sel[i].content, maxSnippetChars))
            && |out[i].snippet| <= maxSnippetChars + |TruncationMarker|
            && (ProbablyText(sel[i]) == Ok(false) ==> out[i].snippet == ""))
      && (Distinct(PathsOf(sel)) ==> forall i, j :: 0 <= i < j < |sel| ==> out[i].path != out[j].path)
  {
    var out := IndexFiles(sel, maxSnippetChars).value;
    MapUntilErrOk(e => IndexFile(e, maxSnippetChars), sel);
    forall i | 0 <= i < |sel| {
      IndexFileFacts(sel[i], maxSnippetChars);
    }
    if Distinct(PathsOf(sel)) {
      forall i, j | 0 <= i < j < |sel| ensures out[i].path != out[j].path {
        assert PathsOf(sel)[i] != PathsOf(sel)[j];
      }
    }
  }

  /** Lines 128-135 of `build_index`. */
  method MakeImportant(sel: seq<FileEntry>, maxSnippetChars: nat)
    returns (r: Result<seq<IndexedFile>, IndexError>)
    ensures r == IndexFiles(sel, maxSnippetChars)
  {
    var important: seq<IndexedFile> := [];
    for i := 0 to |sel|
      invariant IndexFiles(sel[..i], maxSnippetChars) == Ok(important)
    {
      var p := sel[i];
      assert sel[..i + 1][..i] == sel[..i];
      var size := if p.size.Some? then p.size.value else 0;
      var isText := ProbablyText(p);
      if isText.Err? {
        MapUntilErrSticky(e => IndexFile(e, maxSnippetChars), sel, i + 1);
        return Err(isText.error);
      }
      var snippet := if isText.value then SafeReadText(p.content, maxSnippetChars) else "";
      important := important + [IndexedFile(p.Path(), size, snippet)];
    }
    assert sel[..|sel|] == sel;
    return Ok(important);
  }

  // ---------------------------------------------------------------------------
  // The tree preview

  /** `f"... ({k} more)"` */
  function MoreLine(k: nat): string {
    "... (" + NatToString(k) + " more)"
  }

  /** The lines of `_make_tree_preview`: the paths sorted, the first
      `maxLines` of them, and a count of the rest when there is a rest. */
  function PreviewLines(rels: seq<string>, maxLines: nat): seq<string> {
    var sorted := SortBy(rels, StrLe);
    if |sorted| <= maxLines then sorted else sorted[..maxLines] + [MoreLine(|sorted| - maxLines)]
  }

  function TreePreview(files: seq<FileEntry>, maxLines: nat): string {
    Join(PreviewLines(PathsOf(files), maxLines), "\n")
  }

  lemma StrLeTotalPreorder()
    ensures TotalPreorder(StrLe)
  {
    forall a, b ensures StrLe(a, b) || StrLe(b, a) {
      StrLeTotal(a, b);
    }
    forall a, b, c | StrLe(a, b) && StrLe(b, c) ensures StrLe(a, c) {
      StrLeTrans(a, b, c);
    }
  }

  lemma SortPathsSorted(rels: seq<string>)
    ensures SortedBy(SortBy(rels, StrLe), StrLe)
  {
    StrLeTotalPreorder();
    SortBySorted(rels, StrLe);
  }

  /** The preview shows the `maxLines` smallest paths in order, every path
      when they fit, and otherwise one more line that counts the paths left
      out. */
  lemma PreviewLinesShape(rels: seq<string>, maxLines: nat)
    ensures var lines := PreviewLines(rels, maxLines);
      var shown := if |rels| <= maxLines then |rels| else maxLines;
      && |lines| == shown + (if |rels| > maxLines then 1 else 0)
      && SortedBy(lines[..shown], StrLe)
      && multiset(lines[..shown]) <= multiset(rels)
      && (forall i :: 0 <= i < shown ==> lines[i] in rels)
      && (|rels| <= maxLines ==> multiset(lines) == multiset(rels))
      && (|rels| > maxLines ==> lines[shown] == MoreLine(|rels| - maxLines))
  {
    var sorted := SortBy(rels, StrLe);
    var lines := PreviewLines(rels, maxLines);
    var shown := if |rels| <= maxLines then |rels| else maxLines;
    PreviewShownPrefix(rels, maxLines);
    var head := lines[..shown];
    forall i | 0 <= i < shown ensures lines[i] in rels {
      assert lines[i] == head[i];
      assert head[i] in multiset(head);
    }
    if |rels| <= maxLines {
      PreviewLinesFit(rels, maxLines);
    } else {
      PreviewLinesMore(rels, maxLines);
    }
  }

  /** When the paths fit, the preview is all of them. */
  lemma PreviewLinesFit(rels: seq<string>, maxLines: nat)
    requires |rels| <= maxLines
    ensures multiset(PreviewLines(rels, maxLines)) == multiset(rels)
  {
    assert PreviewLines(rels, maxLines) == SortBy(rels, StrLe);
  }

  /** When they do not, one line after the first `maxLines` counts the rest. */
  lemma PreviewLinesMore(rels: seq<string>, maxLines: nat)
    requires |rels| > maxLines
    ensures var lines := PreviewLines(rels, maxLines);
      |lines| == maxLines + 1 && lines[maxLines] == MoreLine(|rels| - maxLines)
  {
    var sorted := SortBy(rels, StrLe);
    assert |sorted| == |rels|;
    var more := MoreLine(|sorted| - maxLines);
    assert PreviewLines(rels, maxLines) == sorted[..maxLines] + [more];
  }

  /** The lines shown are the first ones of the sorted paths. */
  lemma PreviewShownPrefix(rels: seq<string>, maxLines: nat)
    ensures var sorted := SortBy(rels, StrLe);
      var lines := PreviewLines(rels, maxLines);
      var shown := if |rels| <= maxLines then |rels| else maxLines;
      && shown <= |lines|
      && lines[..shown] == sorted[..shown]
      && SortedBy(lines[..shown], StrLe)
      && multiset(lines[..shown]) <= multiset(rels)
      && (|rels| <= maxLines ==> lines == sorted)
  {
    var sorted := SortBy(rels, StrLe);
    var shown := if |rels| <= maxLines then |rels| else maxLines;
    SortPathsSorted(rels);
    SortedByPrefix(sorted, shown, StrLe);
    PrefixMultiset(sorted, shown);
    if |rels| <= maxLines {
      assert sorted[..shown] == sorted;
    }
  }

  /** A path left out of the preview sorts after every path shown. */
  lemma PreviewKeepsSmallest(rels: seq<string>, maxLines: nat, p: string)
    requires p in rels && p !in Take(SortBy(rels, StrLe), maxLines)
    ensures |rels| > maxLines
    ensures forall i :: 0 <= i < maxLines ==> StrLe(PreviewLines(rels, maxLines)[i], p)
  {
    var sorted := SortBy(rels, StrLe);
    SortPathsSorted(rels);
    assert p in multiset(sorted);
    var j :| 0 <= j < |sorted| && sorted[j] == p;
    forall i | 0 <= i < maxLines ensures StrLe(PreviewLines(rels, maxLines)[i], p) {
      assert PreviewLines(rels, maxLines)[i] == sorted[i];
    }
  }

  lemma MoreLineHasNoNewline(k: nat)
    ensures '\n' !in MoreLine(k)
  {
    var d := NatToString(k);
    assert forall i :: 0 <= i < |d| ==> d[i] != '\n';
  }

  /** Without line breaks in the paths, no preview line holds one. */
  lemma PreviewLinesNoNewline(rels: seq<string>, maxLines: nat)
    requires forall i :: 0 <= i < |rels| ==> '\n' !in rels[i]
    ensures forall line :: line in PreviewLines(rels, maxLines) ==> '\n' !in line
  {
    var lines := PreviewLines(rels, maxLines);
    PreviewLinesShape(rels, maxLines);
    var shown := if |rels| <= maxLines then |rels| else maxLines;
    forall i | 0 <= i < |lines| ensures '\n' !in lines[i] {
      if i < shown {
        var j :| 0 <= j < |rels| && rels[j] == lines[i];
      } else {
        MoreLineHasNoNewline(|rels| - maxLines);
      }
    }
  }

  /** When no path contains a line break, the preview splits back into its
      lines. */
  lemma TreePreviewSplits(files: seq<FileEntry>, maxLines: nat)
    requires forall e :: e in files ==> '\n' !in e.Path()
    requires PreviewLines(PathsOf(files), maxLines) != []
    ensures Split(TreePreview(files, maxLines), '\n') == PreviewLines(PathsOf(files), maxLines)
  {
    var rels := PathsOf(files);
    forall i | 0 <= i < |rels| ensures '\n' !in rels[i] {
      assert files[i] in files;
    }
    PreviewLinesNoNewline(rels, maxLines);
    SplitJoin(PreviewLines(rels, maxLines), '\n');
  }

  /** The loop at lines 149-154: each scanned file's path relative to the
      root. Every scanned file lies below the root, so none is skipped. */
  method RelativePaths(files: seq<FileEntry>) returns (rels: seq<string>)
    ensures rels == PathsOf(files)
  {
    rels := [];
    for i := 0 to |files|
      invariant rels == PathsOf(files[..i])
    {
      PathsOfPrefix(files, i);
      rels := rels + [files[i].Path()];
    }
    assert files[..|files|] == files;
  }

  /** `_make_tree_preview` */
  method MakeTreePreview(files: seq<FileEntry>, maxLines: nat) returns (preview: string)
    ensures preview == TreePreview(files, maxLines)
  {
    var rels := RelativePaths(files);
    var sorted := SortBy(rels, StrLe);
    var lines := Take(sorted, maxLines);
    if |sorted| > maxLines {
      lines := lines + [MoreLine(|sorted| - maxLines)];
    }
    preview := Join(lines, "\n");
  }

  // ---------------------------------------------------------------------------
  // The whole index

  /** `build_index` on a resolved root path. The result is an error exactly
      when the text check of a selected file raises. */
  function BuildIndexSpec(
    rootPath: string, tree: seq<FileEntry>, listing: seq<FileEntry>,
    maxFiles: int, maxTotalBytes: int, maxSnippetChars: nat, importantLimit: nat,
    excludeDirs: Option<set<string>>): Result<ProjectIndex, IndexError>
  {
    var files := Scanned(WalkFiles(tree, EffectiveExclude(excludeDirs)), maxFiles, maxTotalBytes);
    match IndexFiles(Selection(listing, files, importantLimit), maxSnippetChars)
    case Err(err) => Err(err)
    case Ok(important) =>
      Ok(ProjectIndex(rootPath, |files|, TotalSize(files), important, TreePreview(files, TreePreviewLines)))
  }

  /** `build_index` */
  method BuildIndex(
    rootPath: string, tree: seq<FileEntry>, listing: seq<FileEntry>,
    maxFiles: int, maxTotalBytes: int, maxSnippetChars: nat, importantLimit: nat,
    excludeDirs: Option<set<string>>)
    returns (r: Result<ProjectIndex, IndexError>)
    ensures r == BuildIndexSpec(rootPath, tree, listing, maxFiles, maxTotalBytes, maxSnippetChars, importantLimit, excludeDirs)
  {
    var exclude := EffectiveExclude(excludeDirs);
    var fileCount, totalBytes, files := Scan(WalkFiles(tree, exclude), maxFiles, maxTotalBytes);
    var paths := SelectImportant(listing, files, importantLimit);
    var important := MakeImportant(Take(paths, importantLimit), maxSnippetChars);
    if important.Err? {
      return Err(important.error);
    }
    var preview := MakeTreePreview(files, TreePreviewLines);
    return Ok(ProjectIndex(rootPath, fileCount, totalBytes, important.value, preview));
  }

  /** What a successful index promises: the counters describe the scanned
      files; at most `important_limit` important files, no path twice, each
      with its stat size (0 if the stat failed) and a snippet within the
      budget, empty for files that are not text. */
  lemma BuildIndexFacts(
    rootPath: string, tree: seq<FileEntry>, listing: seq<FileEntry>,
    maxFiles: int, maxTotalBytes: int, maxSnippetChars: nat, importantLimit: nat,
    excludeDirs: Option<set<string>>)
    ensures var r := BuildIndexSpec(rootPath, tree, listing, maxFiles, maxTotalBytes, maxSnippetChars, importantLimit, excludeDirs);
      var files := Scanned(WalkFiles(tree, EffectiveExclude(excludeDirs)), maxFiles, maxTotalBytes);
      var sel := Selection(listing, files, importantLimit);
      r.Ok? ==>
        && r.value.root == rootPath
        && r.value.fileCount == |files| && r.value.totalBytes == TotalSize(files)
        && |r.value.important| == |sel| <= importantLimit
        && (forall i, j :: 0 <= i < j < |sel| ==> r.value.important[i].path != r.value.important[j].path)
        && (forall i :: 0 <= i < |sel| ==>
              && r.value.important[i].path == sel[i].Path()
              && r.value.important[i].size == SizeOf(sel[i])
              && (sel[i].size.None? ==> r.value.important[i].size == 0)
              && (ProbablyText(sel[i]) == Ok(true) ==>
                    r.value.important[i].snippet == SafeReadText(sel[i].content, maxSnippetChars))
              && |r.value.important[i].snippet| <= maxSnippetChars + |TruncationMarker|
              && (ProbablyText(sel[i]) == Ok(false) ==> r.value.important[i].snippet == ""))
  {
    var files := Scanned(WalkFiles(tree, EffectiveExclude(excludeDirs)), maxFiles, maxTotalBytes);
    var sel := Selection(listing, files, importantLimit);
    SelectionWellFormed(listing, files, importantLimit);
    if IndexFiles(sel, maxSnippetChars).Ok? {
      IndexFilesFacts(sel, maxSnippetChars);
    }
  }

  /** Indexing fails only in one corner: a root entry named exactly `.py`
      whose stat fails. The glob picks it up, it has no suffix, and the text
      check then needs its size. Scanned files always have a size, and the
      preferred names are only taken when they exist. */
  lemma BuildIndexFailsOnlyOnDotPy(
    rootPath: string, tree: seq<FileEntry>, listing: seq<FileEntry>,
    maxFiles: int, maxTotalBytes: int, maxSnippetChars: nat, importantLimit: nat,
    excludeDirs: Option<set<string>>)
    ensures var r := BuildIndexSpec(rootPath, tree, listing, maxFiles, maxTotalBytes, maxSnippetChars, importantLimit, excludeDirs);
      r.Err? ==> r.error == ProbeFailed(".py") && exists e :: e in listing && e.name == ".py" && e.size.None?
  {
    var files := Scanned(WalkFiles(tree, EffectiveExclude(excludeDirs)), maxFiles, maxTotalBytes);
    var sel := Selection(listing, files, importantLimit);
    var r := IndexFiles(sel, maxSnippetChars);
    if r.Err? {
      MapUntilErrFirstError(e => IndexFile(e, maxSnippetChars), sel);
      var i :| 0 <= i < |sel| && IndexFile(sel[i], maxSnippetChars).Err? && IndexFile(sel[i], maxSnippetChars).error == r.error;
      var e := sel[i];
      IndexFileFacts(e, maxSnippetChars);
      assert Suffix(e.name) == "" && e.size.None?;
      SelectedEntryOrigin(listing, files, importantLimit, e);
      ScanBounds(WalkFiles(tree, EffectiveExclude(excludeDirs)), maxFiles, maxTotalBytes);
      PreferredFoundOrder(listing, PreferredNames);
      assert e !in files && e !in Tier1(listing);
      RootSourcesOrigin(listing, e);
      var x :| x in listing && EndsWith(x.name, ".py") && AtRoot(x) == e;
      DotPyOnly(e.name);
    }
  }

  /** An element of three segments laid end to end lies in one of them. */
  lemma SegmentMembers(full: seq<FileEntry>, a: nat, b: nat, t1: seq<FileEntry>, t2: seq<FileEntry>, t3: seq<FileEntry>, e: FileEntry)
    requires a <= b <= |full| && full[..a] == t1 && IsSubseq(full[a..b], t2) && IsSubseq(full[b..], t3)
    requires e in full
    ensures e in t1 || e in t2 || e in t3
  {
    var k :| 0 <= k < |full| && full[k] == e;
    if k < a {
      assert t1[k] == e;
    } else if k < b {
      assert full[a..b][k - a] == e;
      SubseqMembers(full[a..b], t2);
    } else {
      assert full[b..][k - b] == e;
      SubseqMembers(full[b..], t3);
    }
  }

  /** Every selected entry comes from one of the three tiers: an existing
      preferred root file, a root `*.py` entry, or a scanned file. */
  lemma SelectedEntryOrigin(listing: seq<FileEntry>, files: seq<FileEntry>, limit: nat, e: FileEntry)
    requires e in Selection(listing, files, limit)
    ensures e in Tier1(listing) || e in RootSources(listing) || e in files
  {
    var t1, t2, t3 := Tier1(listing), Tier2(listing), Tier3(files);
    var full := Candidates(listing, files, limit);
    CandidatesLayout(listing, files, limit);
    SegmentMembers(full, |t1|, |AppendNew(t1, t2)|, t1, t2, t3, e);
    Tier2Sorted(listing);
    Tier3Facts(files);
  }

  /** The one name that ends in `.py` yet has no suffix. */
  lemma DotPyOnly(name: string)
    requires EndsWith(name, ".py") && Suffix(name) == ""
    ensures name == ".py"
  {
    var i := |name| - 3;
    assert name[i] == '.' && name[i + 1] == 'p' && name[i + 2] == 'y';
    assert LastDot(name) == i;
  }
}

=== FILE: json.dfy ===
/** The values `json.loads` produces, as far as the two validators look at
    them. Numbers are kept as integers: the one number a validator inspects
    is a `done` of 0 or 1, and floats are not modelled. An object is a
    dictionary: later duplicate keys have already overwritten earlier ones,
    as in Python. */
module JsonModel {
  import opened Wrappers

  datatype Json =
    | JNull
    | JBool(b: bool)
    | JNumber(n: int)
    | JString(s: string)
    | JArray(items: seq<Json>)
    | JObject(fields: map<string, Json>)

  /** `obj.get(key)` on a dictionary. */
  function Get(fields: map<string, Json>, key: string): Option<Json> {
    if key in fields then Some(fields[key]) else None
  }
}

=== FILE: protocol.dfy ===
/** The FINAL_REPORT completion protocol: an agent ends its answer with the
    marker `FINAL_REPORT`, a fenced ```` ```json ```` block and a JSON object
    inside it. The extractor looks for the first such block, parses the
    object and checks it against the `FinalReport` schema; every failure is
    reported as `None`.

    The one regular expression of the protocol,
    `FINAL_REPORT\s*```json\s*(\{.*?\})\s*```` searched with DOTALL and
    IGNORECASE, is modelled by a scanner, `Search`, and by a declarative
    description of its matches, `IsMatch`; the lemmas connect the two. */
module Protocol {
  import opened Wrappers
  import opened Text
  import opened Seqs
  import opened JsonModel

  const FinalMarker: string := "FINAL_REPORT"
  const FenceOpen: string := "```json"

  datatype ArtifactOut = ArtifactOut(path: string, description: string)

  /** `kind` is the field `type` of the schema. */
  datatype FinalReport = FinalReport(
    kind: string,
    summary: string,
    artifacts: seq<ArtifactOut>,
    nextSteps: seq<string>,
    done: bool)

  // ---------------------------------------------------------------------------
  // Matching one pattern character

  function AsciiLower(c: char): char {
    if 'A' <= c <= 'Z' then (c as int + 32) as char else c
  }

  /** The case folding IGNORECASE applies before comparing characters: the
      simple lower-case mapping, which takes `U+0130` (dotted capital I) to
      `i` and `U+212A` (Kelvin sign) to `k`, together with the engine's own
      equivalences of `U+0131` (dotless i) with `i` and `U+017F` (long s)
      with `s`. Only the characters that fold to an ASCII letter matter for
      the pattern, which has no other letters. */
  function FoldCase(c: char): char {
    if 'A' <= c <= 'Z' then (c as int + 32) as char
    else if c == '\U{130}' || c == '\U{131}' then 'i'
    else if c == '\U{212A}' then 'k'
    else if c == '\U{17F}' then 's'
    else c
  }

  /** `s` matches the pattern characters `pat` one by one. */
  predicate EqualCI(s: string, pat: string) {
    |s| == |pat| && (pat == [] || (FoldCase(s[0]) == FoldCase(pat[0]) && EqualCI(s[1..], pat[1..])))
  }

  /** `pat` matches case-insensitively at position `i` of `text`. */
  predicate MatchCI(text: string, i: nat, pat: string) {
    i + |pat| <= |text| && EqualCI(text[i..i + |pat|], pat)
  }

  // ---------------------------------------------------------------------------
  // The scanner

  /** Where a greedy `\s*` starting at `i` stops. */
  function SkipSpace(text: string, i: nat): (j: nat)
    requires i <= |text|
    ensures i <= j <= |text|
    decreases |text| - i
  {
    if i < |text| && IsSpace(text[i]) then SkipSpace(text, i + 1) else i
  }

  /** Three backticks start at `g`. */
  predicate FenceAt(text: string, g: nat) {
    g + 3 <= |text| && text[g] == '`' && text[g + 1] == '`' && text[g + 2] == '`'
  }

  /** `\s*```` matches right after the `}` at `c`. */
  predicate FenceAfter(text: string, c: nat)
    requires c < |text|
  {
    FenceAt(text, SkipSpace(text, c + 1))
  }

  /** The lazy `.*?\}`: the first `}` at or after `from` that a closing fence
      follows. */
  function FindClose(text: string, from: nat): (r: Option<nat>)
    requires from <= |text|
    ensures r.Some? ==> from <= r.value < |text| && text[r.value] == '}' && FenceAfter(text, r.value)
    decreases |text| - from
  {
    if from == |text| then None
    else if text[from] == '}' && FenceAfter(text, from) then Some(from)
    else FindClose(text, from + 1)
  }

  /** The positions of one match: the marker at `start`, the opening fence at
      `fence`, the braces at `open` and `close`, and the match ends at `end`
      (after the closing fence). */
  datatype Hit = Hit(start: nat, fence: nat, open: nat, close: nat, end: nat)

  /** The engine's attempt at position `i`, in the order of the pattern:
      the marker, `\s*`, the opening fence, `\s*`, `{`, the lazy `.*?\}`,
      `\s*` and the closing fence. Every `\s*` is followed by a character
      that is not whitespace, so the greedy runs never give anything back;
      only the lazy `.*?` has a choice, and it takes the first `}` that
      completes the match. */
  function MatchAt(text: string, i: nat): (r: Option<Hit>)
    requires i <= |text|
    ensures r.Some? ==> r.value.start == i && r.value.end <= |text|
  {
    if !MatchCI(text, i, FinalMarker) then None
    else MatchFromFence(text, i, SkipSpace(text, i + |FinalMarker|))
  }

  /** The rest of the attempt at `i` once the marker and the whitespace
      after it are consumed and the opening fence should start at `f`. */
  function MatchFromFence(text: string, i: nat, f: nat): (r: Option<Hit>)
    requires f <= |text|
    ensures r.Some? ==> r.value.start == i && r.value.end <= |text|
  {
    if !MatchCI(text, f, FenceOpen) then None
    else MatchFromBrace(text, i, f, SkipSpace(text, f + |FenceOpen|))
  }

  /** The rest of the attempt once `{` should be at `o`. */
  function MatchFromBrace(text: string, i: nat, f: nat, o: nat): (r: Option<Hit>)
    requires o <= |text|
    ensures r.Some? ==> r.value.start == i && r.value.end <= |text|
  {
    if o == |text| || text[o] != '{' then None
    else MatchClose(text, i, f, o, FindClose(text, o + 1))
  }

  /** The match, if the lazy group found its `}`. */
  function MatchClose(text: string, i: nat, f: nat, o: nat, close: Option<nat>): (r: Option<Hit>)
    requires close.Some? ==> close.value < |text| && FenceAfter(text, close.value)
    ensures r.Some? ==> r.value.start == i && r.value.end <= |text|
  {
    if close.None? then None
    else Some(Hit(i, f, o, close.value, SkipSpace(text, close.value + 1) + 3))
  }

  /** The engine's attempts at every position of `text`, the end included. */
  function Attempts(text: string): (a: seq<Option<Hit>>)
    ensures |a| == |text| + 1
  {
    seq(|text| + 1, i requires 0 <= i <= |text| => MatchAt(text, i))
  }

  /** `_FINAL_BLOCK_RE.search(text)`: the first attempt that succeeds. */
  function Search(text: string): (r: Option<Hit>)
    ensures r.Some? ==> r.value.end <= |text|
  {
    var a := Attempts(text);
    var k := FirstSome(a, 0);
    if k < |a| then a[k] else None
  }

  /** `m.group(1)` */
  function Payload(text: string, h: Hit): string
    requires h.open <= h.close < |text|
  {
    text[h.open..h.close + 1]
  }

  // ---------------------------------------------------------------------------
  // What a match is, without the scanner

  /** The marker at `h.start`, then whitespace up to `h.fence`. */
  predicate MarkerPart(text: string, h: Hit) {
    && MatchCI(text, h.start, FinalMarker)
    && h.start + |FinalMarker| <= h.fence <= |text|
    && AllSpace(text[h.start + |FinalMarker|..h.fence])
  }

  /** The opening fence at `h.fence`, then whitespace, then `{` at `h.open`. */
  predicate OpenPart(text: string, h: Hit) {
    && MatchCI(text, h.fence, FenceOpen)
    && h.fence + |FenceOpen| <= h.open < |text|
    && AllSpace(text[h.fence + |FenceOpen|..h.open])
    && text[h.open] == '{'
  }

  /** Anything (newlines included) after `{`, then `}` at `h.close`,
      whitespace and the closing fence, which ends at `h.end`. */
  predicate ClosePart(text: string, h: Hit) {
    && h.open < h.close < |text|
    && text[h.close] == '}'
    && h.close + 1 + 3 <= h.end <= |text|
    && AllSpace(text[h.close + 1..h.end - 3])
    && FenceAt(text, h.end - 3)
  }

  /** `text[h.start..h.end]` is a match of the pattern whose group is
      `text[h.open..h.close + 1]`. */
  predicate IsMatch(text: string, h: Hit) {
    MarkerPart(text, h) && OpenPart(text, h) && ClosePart(text, h)
  }

  lemma {:induction false} SkipSpaceFacts(text: string, i: nat)
    requires i <= |text|
    ensures var j := SkipSpace(text, i);
      AllSpace(text[i..j]) && (j == |text| || !IsSpace(text[j]))
    decreases |text| - i
  {
    if i < |text| && IsSpace(text[i]) {
      SkipSpaceFacts(text, i + 1);
      var j := SkipSpace(text, i);
      assert text[i..j] == [text[i]] + text[i + 1..j];
    }
  }

  /** A run of whitespace followed by something else ends where `SkipSpace`
      stops. */
  lemma {:induction false} SkipSpaceUnique(text: string, i: nat, j: nat)
    requires i <= j < |text| && AllSpace(text[i..j]) && !IsSpace(text[j])
    ensures SkipSpace(text, i) == j
    decreases |text| - i
  {
    if i < j {
      assert text[i] == text[i..j][0];
      assert text[i + 1..j] == text[i..j][1..];
      SkipSpaceUnique(text, i + 1, j);
    }
  }

  /** `FindClose` misses no candidate and finds the first one. */
  lemma {:induction false} FindCloseFirst(text: string, from: nat, c: nat)
    requires from <= c < |text| && text[c] == '}' && FenceAfter(text, c)
    ensures FindClose(text, from).Some? && FindClose(text, from).value <= c
    decreases |text| - from
  {
    if from < c && !(text[from] == '}' && FenceAfter(text, from)) {
      FindCloseFirst(text, from + 1, c);
    }
  }

  /** What the last stages of a successful attempt have matched. */
  lemma {:induction false} MatchFromBraceSound(text: string, i: nat, f: nat, o: nat)
    requires o <= |text| && MatchFromBrace(text, i, f, o).Some?
    ensures var h := MatchFromBrace(text, i, f, o).value;
      h.start == i && h.fence == f && h.open == o && text[o] == '{' && ClosePart(text, h)
  {
    var c := FindClose(text, o + 1).value;
    SkipSpaceFacts(text, c + 1);
  }

  lemma {:induction false} MatchFromFenceSound(text: string, i: nat, f: nat)
    requires f <= |text| && MatchFromFence(text, i, f).Some?
    ensures var h := MatchFromFence(text, i, f).value;
      h.start == i && h.fence == f && OpenPart(text, h) && ClosePart(text, h)
  {
    var o := SkipSpace(text, f + |FenceOpen|);
    SkipSpaceFacts(text, f + |FenceOpen|);
    MatchFromBraceSound(text, i, f, o);
  }

  /** Whatever the attempt at `i` returns is a match. */
  lemma {:induction false} MatchAtSound(text: string, i: nat)
    requires i <= |text| && MatchAt(text, i).Some?
    ensures IsMatch(text, MatchAt(text, i).value)
  {
    var f := SkipSpace(text, i + |FinalMarker|);
    SkipSpaceFacts(text, i + |FinalMarker|);
    MatchFromFenceSound(text, i, f);
  }

  /** The opening fence starts with a backtick, which is not whitespace. */
  lemma {:induction false} FenceOpenFirst(text: string, f: nat)
    requires MatchCI(text, f, FenceOpen)
    ensures f < |text| && text[f] == '`' && !IsSpace(text[f])
  {
    assert FoldCase(text[f..f + |FenceOpen|][0]) == FoldCase(FenceOpen[0]);
  }

  /** Once `{` is at `o`, the attempt succeeds if any `}` after it is
      followed by a closing fence, and stops at the first such `}`. */
  lemma {:induction false} MatchFromBraceShortest(text: string, i: nat, f: nat, o: nat, c: nat)
    requires o < c < |text| && text[o] == '{' && text[c] == '}' && FenceAfter(text, c)
    ensures MatchFromBrace(text, i, f, o).Some?
    ensures MatchFromBrace(text, i, f, o).value.close <= c
  {
    FindCloseFirst(text, o + 1, c);
  }

  lemma {:induction false} MatchFromFenceShortest(text: string, h: Hit)
    requires IsMatch(text, h) && FenceAfter(text, h.close)
    ensures MatchFromFence(text, h.start, h.fence).Some?
    ensures MatchFromFence(text, h.start, h.fence).value.close <= h.close
  {
    SkipSpaceUnique(text, h.fence + |FenceOpen|, h.open);
    MatchFromBraceShortest(text, h.start, h.fence, h.open, h.close);
  }

  /** In a match, the whitespace after the marker ends at the fence. */
  lemma {:induction false} MarkerPartSkips(text: string, h: Hit)
    requires MarkerPart(text, h) && OpenPart(text, h)
    ensures SkipSpace(text, h.start + |FinalMarker|) == h.fence
  {
    FenceOpenFirst(text, h.fence);
    SkipSpaceUnique(text, h.start + |FinalMarker|, h.fence);
  }

  /** In a match, the `}` at `h.close` is followed by a closing fence. */
  lemma {:induction false} ClosePartFenceAfter(text: string, h: Hit)
    requires ClosePart(text, h)
    ensures FenceAfter(text, h.close)
  {
    SkipSpaceUnique(text, h.close + 1, h.end - 3);
  }

  /** Every match at `h.start` makes the attempt there succeed, with a `}` no
      later than the match's: the lazy group is the shortest. */
  lemma {:induction false} MatchAtShortest(text: string, h: Hit)
    requires IsMatch(text, h)
    ensures MatchAt(text, h.start).Some?
    ensures MatchAt(text, h.start).value.close <= h.close
  {
    MarkerPartSkips(text, h);
    ClosePartFenceAfter(text, h);
    MatchFromFenceShortest(text, h);
    assert MatchAt(text, h.start) == MatchFromFence(text, h.start, h.fence);
  }

  /** What the search reports is a match. */
  lemma {:induction false} SearchSound(text: string)
    requires Search(text).Some?
    ensures IsMatch(text, Search(text).value)
  {
    var k := FirstSome(Attempts(text), 0);
    MatchAtSound(text, k);
  }

  /** The search finds a match whenever there is one, and the one it finds
      starts leftmost and, among the matches at that start, has the shortest
      group. */
  lemma {:induction false} SearchLeftmostShortest(text: string, m: Hit)
    requires IsMatch(text, m)
    ensures Search(text).Some?
    ensures var h := Search(text).value;
      h.start < m.start || (h.start == m.start && h.close <= m.close)
  {
    MatchAtShortest(text, m);
    var a := Attempts(text);
    assert a[m.start].Some?;
  }

  /** The captured payload starts with `{` and ends with `}`. */
  lemma {:induction false} PayloadIsBraced(text: string)
    requires Search(text).Some?
    ensures var h := Search(text).value;
      h.open < h.close < |text|
      && var p := Payload(text, h);
      |p| >= 2 && p[0] == '{' && p[|p| - 1] == '}'
  {
    SearchSound(text);
  }

  // ---------------------------------------------------------------------------
  // The schema

  /** Applies `f` to every element; fails when it fails on any. */
  function AllOf<T>(items: seq<Json>, f: Json -> Option<T>): (r: Option<seq<T>>)
    decreases |items|
  {
    if items == [] then Some([])
    else match (AllOf(items[..|items| - 1], f), f(items[|items| - 1]))
      case (Some(prev), Some(x)) => Some(prev + [x])
      case _ => None
  }

  function StringValue(j: Json): Option<string> {
    if j.JString? then Some(j.s) else None
  }

  /** `ArtifactOut.model_validate`: a dictionary with string `path` and
      `description`; other keys are ignored. */
  function ArtifactValue(j: Json): Option<ArtifactOut> {
    if !j.JObject? then None
    else match (Get(j.fields, "path"), Get(j.fields, "description"))
      case (Some(JString(p)), Some(JString(d))) => Some(ArtifactOut(p, d))
      case _ => None
  }

  /** A list field with the empty list as default. */
  function ListField<T>(fields: map<string, Json>, key: string, f: Json -> Option<T>): Option<seq<T>> {
    match Get(fields, key)
    case None => Some([])
    case Some(JArray(items)) => AllOf(items, f)
    case Some(_) => None
  }

  function AsciiLowerString(s: string): string {
    if s == [] then [] else [AsciiLower(s[0])] + AsciiLowerString(s[1..])
  }

  /** The boolean field in lax mode: a boolean, the integers 0 and 1, or one
      of the words below in any ASCII case. */
  function BoolValue(j: Json): Option<bool> {
    match j
    case JBool(b) => Some(b)
    case JNumber(n) => if n == 0 then Some(false) else if n == 1 then Some(true) else None
    case JString(s) =>
      var w := AsciiLowerString(s);
      if w in {"0", "off", "f", "false", "n", "no"} then Some(false)
      else if w in {"1", "on", "t", "true", "y", "yes"} then Some(true)
      else None
    case _ => None
  }

  /** `type` is absent (the default `"final"`) or exactly `"final"`. */
  predicate KindOk(fields: map<string, Json>) {
    match Get(fields, "type")
    case None => true
    case Some(t) => t == JString("final")
  }

  /** `summary` is present and a string. */
  predicate SummaryOk(fields: map<string, Json>) {
    Get(fields, "summary").Some? && Get(fields, "summary").value.JString?
  }

  /** The `done` field, `True` when absent. */
  function DoneField(fields: map<string, Json>): Option<bool> {
    match Get(fields, "done")
    case None => Some(true)
    case Some(d) => BoolValue(d)
  }

  /** `FinalReport.model_validate(obj)`, with `None` for a validation error.
      Every field is checked; which one fails first does not matter, since
      every error is reported the same way. */
  function ValidateFinalReport(obj: Json): (r: Option<FinalReport>)
    ensures r.Some? ==> r.value.kind == "final"
    ensures r.Some? ==> obj.JObject? && Get(obj.fields, "summary") == Some(JString(r.value.summary))
  {
    if !obj.JObject? || !KindOk(obj.fields) || !SummaryOk(obj.fields) then None
    else if ListField(obj.fields, "artifacts", ArtifactValue).None? then None
    else if ListField(obj.fields, "next_steps", StringValue).None? then None
    else if DoneField(obj.fields).None? then None
    else Some(FinalReport(
      "final",
      Get(obj.fields, "summary").value.s,
      ListField(obj.fields, "artifacts", ArtifactValue).value,
      ListField(obj.fields, "next_steps", StringValue).value,
      DoneField(obj.fields).value))
  }

  /** What `json.loads` does with the payload: it returns a value, raises
      `JSONDecodeError`, or raises another exception. The others are a
      `RecursionError` on a payload nested too deeply and a `ValueError` on
      an integer literal longer than the interpreter's digit limit. */
  datatype ParseOutcome = Parsed(value: Json) | DecodeError | OtherError

  /** An exception that leaves `try_extract_final_report`. */
  datatype Raised = ParserRaised

  /** `try_extract_final_report` as written: the `except` around
      `json.loads` names only `JSONDecodeError`, so any other exception of
      the parser propagates to the caller. */
  function TryExtractAsWritten(text: string, parse: string -> ParseOutcome): Result<Option<FinalReport>, Raised> {
    match Search(text)
    case None => Ok(None)
    case Some(h) =>
      match parse(Payload(text, h))
      case DecodeError => Ok(None)
      case OtherError => Err(ParserRaised)
      case Parsed(obj) => Ok(ValidateFinalReport(obj))
  }

  /** `try_extract_final_report` as its `Optional` result and the catch-all
      around validation intend: every failure, a parser failure of any kind
      included, is reported as `None`, so the extractor never raises. */
  function TryExtractFinalReport(text: string, parse: string -> ParseOutcome): Option<FinalReport> {
    match Search(text)
    case None => None
    case Some(h) =>
      match parse(Payload(text, h))
      case Parsed(obj) => ValidateFinalReport(obj)
      case _ => None
  }

  // ---------------------------------------------------------------------------
  // Properties of the extractor

  /** A payload of the first match on which the parser raises something
      other than `JSONDecodeError` makes the extractor as written raise. */
  lemma {:induction false} AsWrittenRaises(text: string, parse: string -> ParseOutcome)
    requires Search(text).Some? && parse(Payload(text, Search(text).value)) == OtherError
    ensures TryExtractAsWritten(text, parse) == Err(ParserRaised)
    ensures TryExtractFinalReport(text, parse).None?
  {
  }

  /** Apart from that one case, the code as written and the corrected
      extractor agree, and the code as written raises nothing. */
  lemma {:induction false} AsWrittenAgrees(text: string, parse: string -> ParseOutcome)
    requires Search(text).None? || parse(Payload(text, Search(text).value)) != OtherError
    ensures TryExtractAsWritten(text, parse) == Ok(TryExtractFinalReport(text, parse))
  {
  }

  /** Whenever the text holds a match of the pattern, the extractor as
      written hands the group of the first match to the parser, and raises
      when the parser raises anything but a decoding error. A payload that
      nests a hundred thousand lists has no `}` before its last character,
      so the lazy group reaches it whole. */
  lemma {:induction false} MatchReachesParser(text: string, m: Hit, parse: string -> ParseOutcome)
    requires IsMatch(text, m)
    ensures && Search(text).Some?
            && (parse(Payload(text, Search(text).value)) == OtherError ==>
                  TryExtractAsWritten(text, parse) == Err(ParserRaised))
  {
    SearchLeftmostShortest(text, m);
  }

  /** Text without a match of the pattern gives `None`, and so does a payload
      that does not parse. A result is the validation of the parsed payload
      of the first match, and always has `type == "final"`. */
  lemma {:induction false} TryExtractCases(text: string, parse: string -> ParseOutcome)
    ensures (forall m :: !IsMatch(text, m)) ==> TryExtractFinalReport(text, parse).None?
    ensures var r := TryExtractFinalReport(text, parse);
      r.Some? ==>
        && Search(text).Some?
        && IsMatch(text, Search(text).value)
        && var obj := parse(Payload(text, Search(text).value));
        && obj.Parsed? && ValidateFinalReport(obj.value) == r
        && r.value.kind == "final"
  {
    if Search(text).Some? {
      SearchSound(text);
    }
  }

  /** A payload that does not parse, whatever the parser raises, gives
      `None`. */
  lemma {:induction false} ParseFailureIsNone(text: string, parse: string -> ParseOutcome)
    requires Search(text).Some? && !parse(Payload(text, Search(text).value)).Parsed?
    ensures TryExtractFinalReport(text, parse).None?
  {
  }

  /** A missing or non-string `summary`, or a `type` other than `"final"`,
      fails validation. */
  lemma {:induction false} SchemaRejects(fields: map<string, Json>)
    requires || !("summary" in fields && fields["summary"].JString?)
             || ("type" in fields && fields["type"] != JString("final"))
    ensures ValidateFinalReport(JObject(fields)).None?
  {
  }

  /** The defaults: an object with nothing but a string `summary` (and
      possibly `type: "final"`) validates to an empty report that is done. */
  lemma {:induction false} SchemaDefaults(fields: map<string, Json>, summary: string)
    requires fields.Keys <= {"type", "summary"}
    requires "summary" in fields && fields["summary"] == JString(summary)
    requires "type" in fields ==> fields["type"] == JString("final")
    ensures ValidateFinalReport(JObject(fields)) == Some(FinalReport("final", summary, [], [], true))
  {
  }

  /** Keys outside the schema are ignored. */
  lemma {:induction false} ExtraKeysIgnored(fields: map<string, Json>, key: string, v: Json)
    requires key !in {"type", "summary", "artifacts", "next_steps", "done"}
    ensures ValidateFinalReport(JObject(fields[key := v])) == ValidateFinalReport(JObject(fields))
  {
    var g := fields[key := v];
    assert forall k :: k != key ==> Get(g, k) == Get(fields, k);
  }

  // ---------------------------------------------------------------------------
  // The schema's inverse

  function ArtifactJson(a: ArtifactOut): Json {
    JObject(map["path" := JString(a.path), "description" := JString(a.description)])
  }

  function ArtifactsJson(xs: seq<ArtifactOut>): (r: seq<Json>)
    ensures |r| == |xs|
  {
    if xs == [] then [] else ArtifactsJson(xs[..|xs| - 1]) + [ArtifactJson(xs[|xs| - 1])]
  }

  function StringsJson(xs: seq<string>): (r: seq<Json>)
    ensures |r| == |xs|
  {
    if xs == [] then [] else StringsJson(xs[..|xs| - 1]) + [JString(xs[|xs| - 1])]
  }

  /** The report as the JSON object an agent would write after the marker. */
  function ReportJson(r: FinalReport): Json {
    JObject(map[
      "type" := JString(r.kind),
      "summary" := JString(r.summary),
      "artifacts" := JArray(ArtifactsJson(r.artifacts)),
      "next_steps" := JArray(StringsJson(r.nextSteps)),
      "done" := JBool(r.done)])
  }

  /** An object whose fields hold exactly the parts of `r` validates to `r`. */
  lemma {:induction false} ValidateFromFields(fields: map<string, Json>, r: FinalReport)
    requires r.kind == "final"
    requires Get(fields, "type") == Some(JString(r.kind))
    requires Get(fields, "summary") == Some(JString(r.summary))
    requires ListField(fields, "artifacts", ArtifactValue) == Some(r.artifacts)
    requires ListField(fields, "next_steps", StringValue) == Some(r.nextSteps)
    requires Get(fields, "done") == Some(JBool(r.done))
    ensures ValidateFinalReport(JObject(fields)) == Some(r)
  {
  }

  /** Each key of `ReportJson(r)` holds its field. */
  lemma {:induction false} ReportJsonFields(r: FinalReport)
    ensures var fields := ReportJson(r).fields;
      && Get(fields, "type") == Some(JString(r.kind))
      && Get(fields, "summary") == Some(JString(r.summary))
      && Get(fields, "artifacts") == Some(JArray(ArtifactsJson(r.artifacts)))
      && Get(fields, "next_steps") == Some(JArray(StringsJson(r.nextSteps)))
      && Get(fields, "done") == Some(JBool(r.done))
  {
    assert "type"[0] == 't' && "summary"[0] == 's' && "artifacts"[0] == 'a';
    assert "next_steps"[0] == 'n' && "done"[0] == 'd';
  }

  lemma {:induction false} ArtifactRoundTrip(a: ArtifactOut)
    ensures ArtifactValue(ArtifactJson(a)) == Some(a)
  {
    var fields := ArtifactJson(a).fields;
    assert "path" != "description";
    assert Get(fields, "path") == Some(JString(a.path));
    assert Get(fields, "description") == Some(JString(a.description));
  }

  lemma {:induction false} ArtifactsRoundTrip(xs: seq<ArtifactOut>)
    ensures AllOf(ArtifactsJson(xs), ArtifactValue) == Some(xs)
  {
    if xs != [] {
      var prev := xs[..|xs| - 1];
      ArtifactsRoundTrip(prev);
      ArtifactRoundTrip(xs[|xs| - 1]);
      assert ArtifactsJson(xs)[..|xs| - 1] == ArtifactsJson(prev);
      assert prev + [xs[|xs| - 1]] == xs;
    }
  }

  lemma {:induction false} StringsRoundTrip(xs: seq<string>)
    ensures AllOf(StringsJson(xs), StringValue) == Some(xs)
  {
    if xs != [] {
      var prev := xs[..|xs| - 1];
      StringsRoundTrip(prev);
      assert StringsJson(xs)[..|xs| - 1] == StringsJson(prev);
      assert prev + [xs[|xs| - 1]] == xs;
    }
  }

  /** Validation gives back every report it can produce: writing a report as
      JSON and validating it loses nothing. */
  lemma {:induction false} ReportRoundTrip(r: FinalReport)
    requires r.kind == "final"
    ensures ValidateFinalReport(ReportJson(r)) == Some(r)
  {
    var fields := ReportJson(r).fields;
    ReportJsonFields(r);
    ArtifactsRoundTrip(r.artifacts);
    StringsRoundTrip(r.nextSteps);
    ValidateFromFields(fields, r);
  }
}

=== FILE: report.dfy ===
/** What the local agent tells the user about an indexed project: a short
    summary of four lines and a Markdown report with a fixed sequence of
    sections. Rendering only builds text; writing the report file belongs
    to the agent's `run`, which is not part of this module. */
module Report {
  import opened Text
  import opened Seqs
  import opened Indexer

  const NoFiles: string := "(keine)"
  const NoFilesItem: string := "- (keine)"
  const EmptyTask: string := "(leer)"
  const Fence: string := "```"

  // ---------------------------------------------------------------------------
  // The summary

  /** The paths of the important files, in index order. */
  function ImportantPaths(fs: seq<IndexedFile>): (r: seq<string>)
    ensures |r| == |fs|
    ensures forall i :: 0 <= i < |fs| ==> r[i] == fs[i].path
  {
    if fs == [] then [] else ImportantPaths(fs[..|fs| - 1]) + [fs[|fs| - 1].path]
  }

  /** `', '.join(paths) or '(keine)'` */
  function ImportantNames(paths: seq<string>): string {
    var joined := Join(paths, ", ");
    if joined == "" then NoFiles else joined
  }

  function CountLine(idx: ProjectIndex): string {
    "Projektindex erstellt: " + NatToString(idx.fileCount) + " Dateien, "
      + NatToString(idx.totalBytes) + " Bytes."
  }

  /** The four lines of the summary. */
  function SummaryLineList(idx: ProjectIndex, startMessage: string): (r: seq<string>)
    ensures |r| == 4
  {
    [ CountLine(idx),
      "Root: " + idx.root,
      "Auftrag: " + startMessage,
      "Wichtige Dateien: " + ImportantNames(ImportantPaths(idx.important)) ]
  }

  /** `_render_summary`: the four lines separated by line breaks, the last
      without one. */
  function RenderSummary(idx: ProjectIndex, startMessage: string): string {
    Join(SummaryLineList(idx, startMessage), "\n")
  }

  /** With no important files the last line says `(keine)`; otherwise it
      lists every path, in order, separated by `", "` (a path is never
      empty, so the join is not empty either). */
  lemma {:induction false} ImportantNamesCases(paths: seq<string>)
    requires forall i :: 0 <= i < |paths| ==> paths[i] != ""
    ensures paths == [] ==> ImportantNames(paths) == NoFiles
    ensures paths != [] ==> ImportantNames(paths) == Join(paths, ", ")
  {
    if paths != [] {
      JoinNonEmpty(paths, ", ");
    }
  }

  /** When the root, the message and the paths hold no line break, the
      summary splits into exactly its four lines. */
  lemma {:induction false} SummaryLines(idx: ProjectIndex, startMessage: string)
    requires '\n' !in idx.root && '\n' !in startMessage
    requires forall i :: 0 <= i < |idx.important| ==> '\n' !in idx.important[i].path
    ensures Split(RenderSummary(idx, startMessage), '\n') == SummaryLineList(idx, startMessage)
  {
    SummaryLinesUnbroken(idx, startMessage);
    SplitJoin(SummaryLineList(idx, startMessage), '\n');
  }

  lemma SummaryLinesUnbroken(idx: ProjectIndex, startMessage: string)
    requires '\n' !in idx.root && '\n' !in startMessage
    requires forall i :: 0 <= i < |idx.important| ==> '\n' !in idx.important[i].path
    ensures forall i :: 0 <= i < 4 ==> '\n' !in SummaryLineList(idx, startMessage)[i]
  {
    CountLineUnbroken(idx);
    NamesUnbroken(ImportantPaths(idx.important));
  }

  lemma CountLineUnbroken(idx: ProjectIndex)
    ensures '\n' !in CountLine(idx)
  {
    DigitsAvoidNewline(NatToString(idx.fileCount));
    DigitsAvoidNewline(NatToString(idx.totalBytes));
  }

  lemma NamesUnbroken(paths: seq<string>)
    requires forall i :: 0 <= i < |paths| ==> '\n' !in paths[i]
    ensures '\n' !in ImportantNames(paths)
  {
    JoinAvoids(paths, ", ", '\n');
  }

  lemma DigitsAvoidNewline(s: string)
    requires IsDigits(s)
    ensures '\n' !in s
  {
    assert forall i :: 0 <= i < |s| ==> s[i] != '\n';
  }

  // ---------------------------------------------------------------------------
  // The report

  /** ``- `path` (size bytes)`` */
  function ImportantLine(f: IndexedFile): string {
    "- `" + f.path + "` (" + NatToString(f.size) + " bytes)"
  }

  function ImportantLines(fs: seq<IndexedFile>): (r: seq<string>)
    ensures |r| == |fs|
    ensures forall i :: 0 <= i < |fs| ==> r[i] == ImportantLine(fs[i])
  {
    if fs == [] then [] else ImportantLines(fs[..|fs| - 1]) + [ImportantLine(fs[|fs| - 1])]
  }

  /** The block under "Wichtige Dateien": one line per file or `- (keine)`. */
  function ImportantBlock(fs: seq<IndexedFile>): string {
    var joined := Join(ImportantLines(fs), "\n");
    if joined == "" then NoFilesItem else joined
  }

  /** The message under "Auftrag": stripped, or `(leer)` when blank. */
  function TaskText(startMessage: string): string {
    var s := Strip(startMessage);
    if s == "" then EmptyTask else s
  }

  /** The sections before the snippets, the "Snippets" heading included. */
  function Header(idx: ProjectIndex, startMessage: string): (r: seq<string>)
    ensures |r| == 19
  {
    [ "# Lokal-GbtAgent Report",
      "",
      "## Auftrag",
      TaskText(startMessage),
      "",
      "## Projekt-Überblick",
      "- Root: `" + idx.root + "`",
      "- Dateien (gezählt/gescannt): **" + NatToString(idx.fileCount) + "**",
      "- Gesamtgröße (gezählt/gescannt): **" + NatToString(idx.totalBytes) + "** bytes",
      "",
      "## Wichtige Dateien (heuristisch)",
      ImportantBlock(idx.important),
      "",
      "## Tree Preview (Ausschnitt)",
      Fence,
      idx.treePreview,
      Fence,
      "",
      "## Snippets (Ausschnitt)" ]
  }

  /** The five sections shown for one file with a snippet. */
  function SnippetBlock(f: IndexedFile): (r: seq<string>)
    ensures |r| == 5
  {
    ["### " + f.path, Fence, f.snippet, Fence, ""]
  }

  /** The snippet sections of the files `fs`, in order; a file with an
      empty snippet adds nothing. */
  function SnippetSections(fs: seq<IndexedFile>): seq<string> {
    if fs == [] then []
    else
      var last := fs[|fs| - 1];
      SnippetSections(fs[..|fs| - 1]) + (if last.snippet == "" then [] else SnippetBlock(last))
  }

  lemma AppendAssoc<T>(a: seq<T>, b: seq<T>, c: seq<T>)
    ensures (a + b) + c == a + (b + c)
  {
  }

  lemma SnippetSectionsStep(fs: seq<IndexedFile>, i: nat)
    requires i < |fs|
    ensures SnippetSections(fs[..i + 1])
         == SnippetSections(fs[..i]) + (if fs[i].snippet == "" then [] else SnippetBlock(fs[i]))
  {
    assert fs[..i + 1][..i] == fs[..i];
  }

  const Footer: seq<string> := [
    "## Einschätzung / Nächste Schritte",
    "- Projektindex ist vorhanden; als nächstes binden wir ein LLM-Backend an, das auf Basis dieses Index eine planvolle Task-Ausführung macht.",
    "- Danach: Completion-Erkennung über FINAL_REPORT-Protokoll + Report-Artefakte.",
    ""]

  /** Every section of the report, in order. */
  function ReportSections(idx: ProjectIndex, startMessage: string): seq<string> {
    Header(idx, startMessage) + SnippetSections(idx.important) + Footer
  }

  /** `_render_report`: appends the sections one by one, a snippet block
      for each important file with a snippet, and joins them with line
      breaks. */
  method RenderReport(idx: ProjectIndex, startMessage: string) returns (report: string)
    ensures report == Join(ReportSections(idx, startMessage), "\n")
  {
    // The nineteen fixed appends before the loop.
    var sections := Header(idx, startMessage);

    var i := 0;
    while i < |idx.important|
      invariant i <= |idx.important|
      invariant sections == Header(idx, startMessage) + SnippetSections(idx.important[..i])
    {
      var f := idx.important[i];
      if f.snippet != "" {
        AppendAssoc(Header(idx, startMessage), SnippetSections(idx.important[..i]), SnippetBlock(f));
        sections := sections + ["### " + f.path, Fence, f.snippet, Fence, ""];
      }
      SnippetSectionsStep(idx.important, i);
      i := i + 1;
    }
    assert idx.important[..i] == idx.important;

    // The four fixed appends after it.
    sections := sections + Footer;
    report := Join(sections, "\n");
  }

  // ---------------------------------------------------------------------------
  // Properties of the report

  /** The task section is `(leer)` for a blank message and the stripped
      message otherwise. */
  lemma TaskTextCases(startMessage: string)
    ensures AllSpace(startMessage) ==> TaskText(startMessage) == EmptyTask
    ensures !AllSpace(startMessage) ==> TaskText(startMessage) == Strip(startMessage)
  {
    StripEmptyIff(startMessage);
  }

  /** The important-files block is `- (keine)` exactly when there are no
      important files; otherwise, when no path holds a line break, it has
      one line per file, in index order. */
  lemma {:induction false} ImportantBlockLines(fs: seq<IndexedFile>)
    ensures ImportantBlock(fs) == NoFilesItem <==> fs == []
    ensures fs != [] && (forall i :: 0 <= i < |fs| ==> '\n' !in fs[i].path) ==>
      Split(ImportantBlock(fs), '\n') == ImportantLines(fs)
  {
    var lines := ImportantLines(fs);
    if fs != [] {
      var joined := Join(lines, "\n");
      JoinNonEmpty(lines, "\n");
      assert joined[..3] == lines[0][..3] by {
        JoinPrefix(lines, "\n");
      }
      assert lines[0][..3] == "- `";
      assert NoFilesItem[..3] == "- (";
      if forall i :: 0 <= i < |fs| ==> '\n' !in fs[i].path {
        forall i | 0 <= i < |lines| ensures '\n' !in lines[i] {
          DigitsAvoidNewline(NatToString(fs[i].size));
        }
        SplitJoin(lines, '\n');
      }
    }
  }

  /** A join starts with its first piece. */
  lemma JoinPrefix(xs: seq<string>, sep: string)
    requires xs != []
    ensures |xs[0]| <= |Join(xs, sep)| && Join(xs, sep)[..|xs[0]|] == xs[0]
  {
  }

  /** The files that get a snippet block: those whose snippet is not empty,
      in index order. */
  function WithSnippet(fs: seq<IndexedFile>): (r: seq<IndexedFile>)
    ensures forall i :: 0 <= i < |r| ==> r[i].snippet != ""
  {
    if fs == [] then []
    else
      var last := fs[|fs| - 1];
      WithSnippet(fs[..|fs| - 1]) + (if last.snippet == "" then [] else [last])
  }

  /** `WithSnippet` keeps the order of the files: what it returns is the
      file list with some files skipped. */
  lemma {:induction false} WithSnippetOrdered(fs: seq<IndexedFile>)
    ensures IsSubseq(WithSnippet(fs), fs)
  {
    if fs != [] {
      var prev := fs[..|fs| - 1];
      var last := fs[|fs| - 1];
      var w, wp := WithSnippet(fs), WithSnippet(prev);
      WithSnippetOrdered(prev);
      if last.snippet == "" {
        assert w == wp;
      } else {
        assert w[..|w| - 1] == wp && w[|w| - 1] == last;
      }
    }
  }

  /** `WithSnippet` misses no file that has a snippet. */
  lemma {:induction false} WithSnippetComplete(fs: seq<IndexedFile>)
    ensures forall i :: 0 <= i < |fs| && fs[i].snippet != "" ==> fs[i] in WithSnippet(fs)
  {
    if fs != [] {
      var prev := fs[..|fs| - 1];
      WithSnippetComplete(prev);
      forall i | 0 <= i < |fs| && fs[i].snippet != "" ensures fs[i] in WithSnippet(fs) {
        if i < |prev| {
          assert fs[i] == prev[i];
        }
      }
    }
  }

  /** The snippet sections are the blocks of exactly the files with a
      snippet, one after another in index order. */
  lemma {:induction false} SnippetSectionsBlocks(fs: seq<IndexedFile>)
    ensures |SnippetSections(fs)| == 5 * |WithSnippet(fs)|
    ensures forall k :: 0 <= k < |WithSnippet(fs)| ==>
      SnippetSections(fs)[5 * k..5 * k + 5] == SnippetBlock(WithSnippet(fs)[k])
  {
    if fs != [] {
      var prev := fs[..|fs| - 1];
      var last := fs[|fs| - 1];
      SnippetSectionsBlocks(prev);
      var s, w := SnippetSections(prev), WithSnippet(prev);
      if last.snippet != "" {
        forall k | 0 <= k < |w| + 1
          ensures SnippetSections(fs)[5 * k..5 * k + 5] == SnippetBlock(WithSnippet(fs)[k])
        {
          if k < |w| {
            assert SnippetSections(fs)[5 * k..5 * k + 5] == s[5 * k..5 * k + 5];
            assert WithSnippet(fs)[k] == w[k];
          } else {
            assert SnippetSections(fs)[5 * k..5 * k + 5] == SnippetBlock(last);
          }
        }
      }
    }
  }

  /** The report's layout: the fixed opening sections (title, task,
      overview, important files and tree preview, up to the "Snippets"
      heading), then one five-section block for each file with a snippet, in
      index order, then the closing section. */
  lemma {:induction false} ReportLayout(idx: ProjectIndex, startMessage: string)
    ensures var s := ReportSections(idx, startMessage);
      var w := WithSnippet(idx.important);
      && |s| == 19 + 5 * |w| + 4
      && s[..19] == Header(idx, startMessage)
      && (forall k :: 0 <= k < |w| ==> s[19 + 5 * k..19 + 5 * k + 5] == SnippetBlock(w[k]))
      && s[19 + 5 * |w|..] == Footer
  {
    var s := ReportSections(idx, startMessage);
    var w := WithSnippet(idx.important);
    var h, m := Header(idx, startMessage), SnippetSections(idx.important);
    SnippetSectionsBlocks(idx.important);
    assert s == h + m + Footer;
    assert s[..19] == h;
    assert s[19 + |m|..] == Footer;
    forall k | 0 <= k < |w| ensures s[19 + 5 * k..19 + 5 * k + 5] == SnippetBlock(w[k]) {
      assert s[19 + 5 * k..19 + 5 * k + 5] == m[5 * k..5 * k + 5];
    }
  }

  /** The report ends with a line break: its last section is empty. */
  lemma ReportEndsWithNewline(idx: ProjectIndex, startMessage: string)
    ensures var r := Join(ReportSections(idx, startMessage), "\n");
      |r| > 0 && r[|r| - 1] == '\n'
  {
    JoinEndsWithEmpty(ReportSections(idx, startMessage));
  }

  lemma {:induction false} JoinEndsWithEmpty(xs: seq<string>)
    requires |xs| >= 2 && xs[|xs| - 1] == ""
    ensures var r := Join(xs, "\n"); |r| > 0 && r[|r| - 1] == '\n'
  {
    if |xs| > 2 {
      JoinEndsWithEmpty(xs[1..]);
    }
  }
}

=== FILE: seqs.dfy ===
/** Generic facts about sequences: ordering by a relation, the stable sort
    that Python's `sorted(...)` and `list.sort(key=...)` perform, and
    subsequences (what is left of a list after some elements are skipped). */
module Seqs {
  import opened Wrappers

  /** `le` is a total preorder: any two elements compare, and comparison
      chains. Keys compared with `<=` (sizes, strings) are of this kind. */
  ghost predicate TotalPreorder<T(!new)>(le: (T, T) -> bool) {
    && (forall a, b :: le(a, b) || le(b, a))
    && (forall a, b, c :: le(a, b) && le(b, c) ==> le(a, c))
  }

  predicate SortedBy<T>(s: seq<T>, le: (T, T) -> bool) {
    forall i, j :: 0 <= i < j < |s| ==> le(s[i], s[j])
  }

  /** Puts `x` in front of the first element it is `le` to. */
  function Insert<T>(x: T, s: seq<T>, le: (T, T) -> bool): (r: seq<T>)
    ensures |r| == |s| + 1
    ensures multiset(r) == multiset(s) + multiset{x}
  {
    if s == [] || le(x, s[0]) then [x] + s
    else
      assert s == [s[0]] + s[1..];
      [s[0]] + Insert(x, s[1..], le)
  }

  /** Stable sort by `le`. The library sort Python uses is a different
      algorithm, but any stable sort by a total preorder gives this result. */
  function SortBy<T>(s: seq<T>, le: (T, T) -> bool): (r: seq<T>)
    ensures |r| == |s| && multiset(r) == multiset(s)
  {
    if s == [] then []
    else
      assert s == [s[0]] + s[1..];
      Insert(s[0], SortBy(s[1..], le), le)
  }

  lemma {:induction false} InsertKeepsSorted<T(!new)>(x: T, s: seq<T>, le: (T, T) -> bool)
    requires TotalPreorder(le) && SortedBy(s, le)
    ensures SortedBy(Insert(x, s, le), le)
  {
    if s == [] || le(x, s[0]) {
      var r := [x] + s;
      forall i, j | 0 <= i < j < |r| ensures le(r[i], r[j]) {
        if i == 0 && j > 1 {
          assert le(s[0], s[j - 1]);
        }
      }
    } else {
      InsertKeepsSorted(x, s[1..], le);
      var t := Insert(x, s[1..], le);
      var r := [s[0]] + t;
      assert le(s[0], x);
      forall k | 0 <= k < |t| ensures le(s[0], t[k]) {
        assert t[k] in multiset(t);
        if t[k] != x {
          assert t[k] in multiset(s[1..]);
          var j :| 0 <= j < |s[1..]| && s[1..][j] == t[k];
          assert s[j + 1] == t[k];
        }
      }
      forall i, j | 0 <= i < j < |r| ensures le(r[i], r[j]) {
        if i == 0 {
          assert r[j] == t[j - 1];
        } else {
          assert r[i] == t[i - 1] && r[j] == t[j - 1];
        }
      }
    }
  }

  /** `SortBy` sorts. */
  lemma {:induction false} SortBySorted<T(!new)>(s: seq<T>, le: (T, T) -> bool)
    requires TotalPreorder(le)
    ensures SortedBy(SortBy(s, le), le)
  {
    if s != [] {
      SortBySorted(s[1..], le);
      InsertKeepsSorted(s[0], SortBy(s[1..], le), le);
    }
  }

  /** The elements of `s` that `le` cannot tell apart from `k`, in order. */
  function KeepEquivalent<T>(s: seq<T>, k: T, le: (T, T) -> bool): seq<T> {
    if s == [] then []
    else (if le(s[0], k) && le(k, s[0]) then [s[0]] else []) + KeepEquivalent(s[1..], k, le)
  }

  lemma {:induction false} InsertStable<T(!new)>(x: T, s: seq<T>, k: T, le: (T, T) -> bool)
    requires TotalPreorder(le)
    ensures KeepEquivalent(Insert(x, s, le), k, le)
         == (if le(x, k) && le(k, x) then [x] else []) + KeepEquivalent(s, k, le)
  {
    if s == [] || le(x, s[0]) {
      assert ([x] + s)[1..] == s;
    } else {
      var ex := if le(x, k) && le(k, x) then [x] else [];
      var es := if le(s[0], k) && le(k, s[0]) then [s[0]] else [];
      var rest := KeepEquivalent(s[1..], k, le);
      InsertStable(x, s[1..], k, le);
      assert ([s[0]] + Insert(x, s[1..], le))[1..] == Insert(x, s[1..], le);
      assert KeepEquivalent(Insert(x, s, le), k, le) == es + (ex + rest);
      assert KeepEquivalent(s, k, le) == es + rest;
      assert ex == [] || es == [];
    }
  }

  /** `SortBy` is stable: elements with equal keys keep their input order. */
  lemma {:induction false} SortByStable<T(!new)>(s: seq<T>, k: T, le: (T, T) -> bool)
    requires TotalPreorder(le)
    ensures KeepEquivalent(SortBy(s, le), k, le) == KeepEquivalent(s, k, le)
  {
    if s != [] {
      SortByStable(s[1..], k, le);
      InsertStable(s[0], SortBy(s[1..], le), k, le);
    }
  }

  /** A prefix of a sorted sequence is sorted. */
  lemma SortedByPrefix<T>(s: seq<T>, k: nat, le: (T, T) -> bool)
    requires k <= |s| && SortedBy(s, le)
    ensures SortedBy(s[..k], le)
  {
    forall i, j | 0 <= i < j < k ensures le(s[..k][i], s[..k][j]) {
      assert s[..k][i] == s[i] && s[..k][j] == s[j];
    }
  }

  /** A prefix holds no element more often than the whole sequence. */
  lemma PrefixMultiset<T>(s: seq<T>, k: nat)
    requires k <= |s|
    ensures multiset(s[..k]) <= multiset(s)
  {
    assert s == s[..k] + s[k..];
  }

  /** `a` is what is left of `b` after dropping some of its elements. */
  predicate IsSubseq<T(==)>(a: seq<T>, b: seq<T>)
    decreases |b|
  {
    || a == []
    || (&& b != []
        && (|| (a[|a| - 1] == b[|b| - 1] && IsSubseq(a[..|a| - 1], b[..|b| - 1]))
            || IsSubseq(a, b[..|b| - 1])))
  }

  lemma SubseqSkip<T>(a: seq<T>, b: seq<T>, x: T)
    requires IsSubseq(a, b)
    ensures IsSubseq(a, b + [x])
  {
    assert (b + [x])[..|b|] == b;
  }

  lemma SubseqTake<T>(a: seq<T>, b: seq<T>, x: T)
    requires IsSubseq(a, b)
    ensures IsSubseq(a + [x], b + [x])
  {
    assert (a + [x])[..|a|] == a;
    assert (b + [x])[..|b|] == b;
  }

  lemma {:induction false} SubseqMembers<T>(a: seq<T>, b: seq<T>)
    requires IsSubseq(a, b)
    ensures forall x :: x in a ==> x in b
    decreases |b|
  {
    if a != [] {
      var a', b' := a[..|a| - 1], b[..|b| - 1];
      if a[|a| - 1] == b[|b| - 1] && IsSubseq(a', b') {
        SubseqMembers(a', b');
        assert a == a' + [a[|a| - 1]] && b == b' + [b[|b| - 1]];
      } else {
        SubseqMembers(a, b');
        assert b == b' + [b[|b| - 1]];
      }
    }
  }

  /** A subsequence of a sorted sequence is sorted. */
  lemma {:induction false} SubseqKeepsSorted<T>(a: seq<T>, b: seq<T>, le: (T, T) -> bool)
    requires IsSubseq(a, b) && SortedBy(b, le)
    ensures SortedBy(a, le)
    decreases |b|
  {
    if a != [] {
      var a', b' := a[..|a| - 1], b[..|b| - 1];
      assert SortedBy(b', le);
      if a[|a| - 1] == b[|b| - 1] && IsSubseq(a', b') {
        SubseqKeepsSorted(a', b', le);
        SubseqMembers(a', b');
        forall i, j | 0 <= i < j < |a| ensures le(a[i], a[j]) {
          if j == |a| - 1 {
            assert a[i] in a';
            var m :| 0 <= m < |b'| && b'[m] == a[i];
            assert le(b[m], b[|b| - 1]);
          } else {
            assert a[i] == a'[i] && a[j] == a'[j];
          }
        }
      } else {
        SubseqKeepsSorted(a, b', le);
      }
    }
  }

  lemma {:induction false} SubseqLength<T>(a: seq<T>, b: seq<T>)
    requires IsSubseq(a, b)
    ensures |a| <= |b|
    decreases |b|
  {
    if a != [] {
      if a[|a| - 1] == b[|b| - 1] && IsSubseq(a[..|a| - 1], b[..|b| - 1]) {
        SubseqLength(a[..|a| - 1], b[..|b| - 1]);
      } else {
        SubseqLength(a, b[..|b| - 1]);
      }
    }
  }

  /** No element occurs twice. */
  predicate Distinct<T(==)>(s: seq<T>) {
    forall i, j :: 0 <= i < j < |s| ==> s[i] != s[j]
  }

  /** Applies `f` to the elements in order and collects the results, stopping
      at the first error: a Python loop whose body may raise. */
  function MapUntilErr<A, B, E>(f: A -> Result<B, E>, s: seq<A>): Result<seq<B>, E>
    decreases |s|
  {
    if s == [] then Ok([])
    else match MapUntilErr(f, s[..|s| - 1])
      case Err(err) => Err(err)
      case Ok(prev) =>
        match f(s[|s| - 1])
        case Err(err) => Err(err)
        case Ok(y) => Ok(prev + [y])
  }

  /** The loop succeeds exactly when every step does, and then holds every
      step's result in order. */
  lemma {:induction false} MapUntilErrOk<A, B, E>(f: A -> Result<B, E>, s: seq<A>)
    ensures var r := MapUntilErr(f, s);
      && (r.Ok? <==> forall i :: 0 <= i < |s| ==> f(s[i]).Ok?)
      && (r.Ok? ==> |r.value| == |s| && forall i :: 0 <= i < |s| ==> r.value[i] == f(s[i]).value)
    decreases |s|
  {
    if s != [] {
      var s' := s[..|s| - 1];
      MapUntilErrOk(f, s');
      assert forall i :: 0 <= i < |s'| ==> s[i] == s'[i];
    }
  }

  /** A failing loop reports the error of its first failing step. */
  lemma {:induction false} MapUntilErrFirstError<A, B, E>(f: A -> Result<B, E>, s: seq<A>)
    requires MapUntilErr(f, s).Err?
    ensures exists i :: && 0 <= i < |s|
                        && f(s[i]).Err? && f(s[i]).error == MapUntilErr(f, s).error
                        && forall j :: 0 <= j < i ==> f(s[j]).Ok?
    decreases |s|
  {
    var s' := s[..|s| - 1];
    if MapUntilErr(f, s').Err? {
      MapUntilErrFirstError(f, s');
      var i :| && 0 <= i < |s'|
               && f(s'[i]).Err? && f(s'[i]).error == MapUntilErr(f, s').error
               && forall j :: 0 <= j < i ==> f(s'[j]).Ok?;
      assert s[i] == s'[i];
      assert forall j :: 0 <= j < i ==> s[j] == s'[j];
    } else {
      MapUntilErrOk(f, s');
      assert forall j :: 0 <= j < |s'| ==> s[j] == s'[j];
    }
  }

  /** Once a prefix fails, the whole loop fails the same way. */
  lemma {:induction false} MapUntilErrSticky<A, B, E>(f: A -> Result<B, E>, s: seq<A>, i: nat)
    requires i <= |s| && MapUntilErr(f, s[..i]).Err?
    ensures MapUntilErr(f, s) == MapUntilErr(f, s[..i])
    decreases |s|
  {
    if i < |s| {
      var s' := s[..|s| - 1];
      assert s'[..i] == s[..i];
      MapUntilErrSticky(f, s', i);
    } else {
      assert s[..i] == s;
    }
  }

  /** The position of the first `Some` in `a` at or after `i`, or `|a|` when
      there is none. */
  function FirstSome<T>(a: seq<Option<T>>, i: nat): (k: nat)
    requires i <= |a|
    ensures i <= k <= |a|
    ensures k < |a| ==> a[k].Some?
    ensures forall j :: i <= j < k ==> a[j].None?
    decreases |a| - i
  {
    if i == |a| then |a| else if a[i].Some? then i else FirstSome(a, i + 1)
  }
}

=== FILE: taskspec.dfy ===
/** The check `compile_plan_to_taskspec_json` applies to the language
    model's reply before a plan is accepted as a TaskSpec v1: the reply,
    stripped, must be a JSON object and nothing else, with the version tag,
    a goal that is not blank, and non-empty `steps` and `done_criteria`.
    The reply itself is an input here: the call to the model is not part of
    this module. `parse` stands for `json.loads`, with `None` for a decoding
    error. Each `raise ValueError(...)` is an `Err` carrying what the message
    shows. */
module TaskSpec {
  import opened Wrappers
  import opened Text
  import opened JsonModel

  const Version: string := "task_spec_v1"

  /** How much of the reply the two decoding errors quote. */
  const HeadLimit: nat := 60
  const RawLimit: nat := 8000

  datatype TaskSpecError =
    | NotJsonOnly(head: string)  // the reply does not start with `{`
    | InvalidJson(raw: string)   // `json.loads` failed
    | NotAnObject                // the parsed value has no `.get`
    | VersionMismatch
    | GoalMissing
    | StepsMissing
    | DoneCriteriaMissing

  /** `isinstance(v, list) and len(v) > 0`, for `v = data.get(key)`. */
  predicate NonEmptyList(v: Option<Json>) {
    v.Some? && v.value.JArray? && |v.value.items| > 0
  }

  /** `isinstance(v, str) and v.strip()`, for `v = data.get("goal")`. */
  predicate GoalPresent(v: Option<Json>) {
    v.Some? && v.value.JString? && Strip(v.value.s) != []
  }

  /** The first of the four field checks that fails, in the order the
      source makes them. */
  function FieldError(fields: map<string, Json>): Option<TaskSpecError> {
    if Get(fields, "version") != Some(JString(Version)) then Some(VersionMismatch)
    else if !GoalPresent(Get(fields, "goal")) then Some(GoalMissing)
    else if !NonEmptyList(Get(fields, "steps")) then Some(StepsMissing)
    else if !NonEmptyList(Get(fields, "done_criteria")) then Some(DoneCriteriaMissing)
    else None
  }

  /** The validation of a reply, from `.strip()` to `return data`. */
  function CompileTaskSpec(reply: string, parse: string -> Option<Json>): (r: Result<Json, TaskSpecError>)
    ensures r.Err? && r.error.NotJsonOnly? ==> |r.error.head| <= HeadLimit
    ensures r.Err? && r.error.InvalidJson? ==> |r.error.raw| <= RawLimit
  {
    var out := Strip(reply);
    if !StartsWith(out, "{") then Err(NotJsonOnly(Take(out, HeadLimit)))
    else match parse(out)
      case None => Err(InvalidJson(Take(out, RawLimit)))
      case Some(data) =>
        if !data.JObject? then Err(NotAnObject)
        else match FieldError(data.fields)
          case Some(e) => Err(e)
          case None => Ok(data)
  }

  /** A TaskSpec v1, described without the order of the checks: an object
      with the version tag, a goal holding a character that is not
      whitespace, and non-empty lists of steps and done criteria. */
  predicate IsTaskSpec(data: Json) {
    && data.JObject?
    && Get(data.fields, "version") == Some(JString(Version))
    && Get(data.fields, "goal").Some? && Get(data.fields, "goal").value.JString?
    && !AllSpace(Get(data.fields, "goal").value.s)
    && Get(data.fields, "steps").Some? && Get(data.fields, "steps").value.JArray?
    && Get(data.fields, "steps").value.items != []
    && Get(data.fields, "done_criteria").Some? && Get(data.fields, "done_criteria").value.JArray?
    && Get(data.fields, "done_criteria").value.items != []
  }

  /** The field checks pass exactly on a TaskSpec. */
  lemma {:induction false} FieldErrorNoneIff(fields: map<string, Json>)
    ensures FieldError(fields).None? <==> IsTaskSpec(JObject(fields))
  {
    var goal := Get(fields, "goal");
    if goal.Some? && goal.value.JString? {
      StripEmptyIff(goal.value.s);
    }
  }

  /** A reply is accepted exactly when its stripped text starts with `{`,
      parses, and is a TaskSpec; what is returned is the parsed value,
      unchanged. */
  lemma {:induction false} CompileOkIff(reply: string, parse: string -> Option<Json>)
    ensures var out := Strip(reply);
      CompileTaskSpec(reply, parse).Ok?
      <==> StartsWith(out, "{") && parse(out).Some? && IsTaskSpec(parse(out).value)
    ensures CompileTaskSpec(reply, parse).Ok? ==>
      CompileTaskSpec(reply, parse).value == parse(Strip(reply)).value
  {
    var out := Strip(reply);
    if StartsWith(out, "{") && parse(out).Some? && parse(out).value.JObject? {
      FieldErrorNoneIff(parse(out).value.fields);
    }
  }

  /** A reply that does not start with `{` is rejected before parsing,
      whatever the parser would do, and the error quotes the first 60
      characters of the stripped reply. */
  lemma {:induction false} NotJsonOnlyQuotesHead(reply: string, parse: string -> Option<Json>)
    requires !StartsWith(Strip(reply), "{")
    ensures var r := CompileTaskSpec(reply, parse);
      && r.Err? && r.error.NotJsonOnly?
      && var head := r.error.head;
      && head == Strip(reply)[..|head|]
      && |head| == (if |Strip(reply)| < HeadLimit then |Strip(reply)| else HeadLimit)
  {
  }

  /** A reply that starts with `{` but does not parse is reported with the
      first 8000 characters of the stripped reply. */
  lemma {:induction false} InvalidJsonQuotesRaw(reply: string, parse: string -> Option<Json>)
    requires StartsWith(Strip(reply), "{") && parse(Strip(reply)).None?
    ensures var r := CompileTaskSpec(reply, parse);
      && r.Err? && r.error.InvalidJson?
      && var raw := r.error.raw;
      && raw == Strip(reply)[..|raw|]
      && |raw| == (if |Strip(reply)| < RawLimit then |Strip(reply)| else RawLimit)
  {
  }

  /** The checks of a parsed object fail in the source's order: the error
      reported names the first requirement that the object misses. */
  lemma {:induction false} FirstFailureReported(reply: string, parse: string -> Option<Json>)
    requires StartsWith(Strip(reply), "{") && parse(Strip(reply)).Some?
    requires parse(Strip(reply)).value.JObject?
    ensures var fields := parse(Strip(reply)).value.fields;
      var r := CompileTaskSpec(reply, parse);
      && (r == Err(VersionMismatch) <==> Get(fields, "version") != Some(JString(Version)))
      && (r == Err(GoalMissing) <==>
            Get(fields, "version") == Some(JString(Version)) && !GoalPresent(Get(fields, "goal")))
      && (r == Err(StepsMissing) <==>
            && Get(fields, "version") == Some(JString(Version)) && GoalPresent(Get(fields, "goal"))
            && !NonEmptyList(Get(fields, "steps")))
      && (r == Err(DoneCriteriaMissing) <==>
            && Get(fields, "version") == Some(JString(Version)) && GoalPresent(Get(fields, "goal"))
            && NonEmptyList(Get(fields, "steps")) && !NonEmptyList(Get(fields, "done_criteria")))
  {
  }

  /** Whitespace around the reply makes no difference: the reply is
      stripped before anything else looks at it. */
  lemma {:induction false} SurroundingSpaceIgnored(reply: string, parse: string -> Option<Json>)
    ensures CompileTaskSpec(Strip(reply), parse) == CompileTaskSpec(reply, parse)
  {
    StripIdempotent(reply);
  }
}

=== FILE: text.dfy ===
/** String helpers shared by the indexer, the two protocol validators and the
    report renderer: Python's notion of whitespace and `str.strip()`,
    `sep.join(...)`, decimal formatting of counters, slicing `s[:n]`, and the
    code-point order in which Python compares strings. */
module Text {

  /** Python's `str.isspace()` for one character; the same set is matched by
      `\s` in a `str` regular expression and removed by `str.strip()`. */
  predicate IsSpace(c: char) {
    || ('\t' <= c <= '\r')
    || ('\U{1C}' <= c <= '\U{1F}')
    || c == ' ' || c == '\U{85}' || c == '\U{A0}' || c == '\U{1680}'
    || ('\U{2000}' <= c <= '\U{200A}')
    || c == '\U{2028}' || c == '\U{2029}' || c == '\U{202F}' || c == '\U{205F}'
    || c == '\U{3000}'
  }

  predicate AllSpace(s: string) {
    forall i :: 0 <= i < |s| ==> IsSpace(s[i])
  }

  /** `s.lstrip()` */
  function TrimStart(s: string): (r: string)
    ensures |r| <= |s|
  {
    if s != [] && IsSpace(s[0]) then TrimStart(s[1..]) else s
  }

  /** `s.rstrip()` */
  function TrimEnd(s: string): (r: string)
    ensures |r| <= |s|
  {
    if s != [] && IsSpace(s[|s| - 1]) then TrimEnd(s[..|s| - 1]) else s
  }

  /** `lstrip` drops exactly the leading whitespace: what it returns is a
      suffix of `s` that does not start with whitespace, and what it drops is
      all whitespace. */
  lemma {:induction false} TrimStartFacts(s: string)
    ensures var r := TrimStart(s);
      && |r| <= |s| && r == s[|s| - |r|..]
      && AllSpace(s[..|s| - |r|])
      && (r != [] ==> !IsSpace(r[0]))
  {
    if s != [] && IsSpace(s[0]) {
      var t := s[1..];
      TrimStartFacts(t);
      var r := TrimStart(t);
      var k := |t| - |r|;
      assert t[k..] == s[k + 1..];
      assert s[..k + 1] == [s[0]] + t[..k];
    }
  }

  /** `rstrip` drops exactly the trailing whitespace. */
  lemma {:induction false} TrimEndFacts(s: string)
    ensures var r := TrimEnd(s);
      && |r| <= |s| && r == s[..|r|]
      && AllSpace(s[|r|..])
      && (r != [] ==> !IsSpace(r[|r| - 1]))
  {
    if s != [] && IsSpace(s[|s| - 1]) {
      var t := s[..|s| - 1];
      TrimEndFacts(t);
      var r := TrimEnd(t);
      assert t[..|r|] == s[..|r|];
      assert s[|r|..] == t[|r|..] + [s[|s| - 1]];
    }
  }

  /** `s.strip()`: the slice of `s` left after dropping whitespace at both ends. */
  function Strip(s: string): (r: string)
    ensures |r| <= |s|
    ensures r != [] ==> !IsSpace(r[0]) && !IsSpace(r[|r| - 1])
  {
    TrimStartFacts(s);
    TrimEndFacts(TrimStart(s));
    TrimEnd(TrimStart(s))
  }

  /** The characters `Strip` removes are exactly the whitespace at both ends:
      `s` is leading whitespace, then `Strip(s)`, then trailing whitespace. */
  lemma StripIsSlice(s: string)
    ensures var r := Strip(s);
      var i := |s| - |TrimStart(s)|;
      i + |r| <= |s| && s[i..i + |r|] == r && AllSpace(s[..i]) && AllSpace(s[i + |r|..])
  {
    var t := TrimStart(s);
    TrimStartFacts(s);
    TrimEndFacts(t);
    var r := TrimEnd(t);
    var i := |s| - |t|;
    assert s[i..i + |r|] == t[..|r|];
    assert s[i + |r|..] == t[|r|..];
  }

  /** A string strips to nothing exactly when it is all whitespace. */
  lemma {:induction false} TrimStartAllSpace(s: string)
    requires AllSpace(s)
    ensures TrimStart(s) == []
  {
    if s != [] {
      TrimStartAllSpace(s[1..]);
    }
  }

  /** A string strips to nothing exactly when it is all whitespace. */
  lemma StripEmptyIff(s: string)
    ensures Strip(s) == [] <==> AllSpace(s)
  {
    if AllSpace(s) {
      TrimStartAllSpace(s);
    }
    var t := TrimStart(s);
    TrimStartFacts(s);
    TrimEndFacts(t);
    if Strip(s) == [] {
      assert AllSpace(t[0..]);
      assert t == [];
      assert s[..|s|] == s;
    }
  }

  /** Stripping twice strips nothing more. */
  lemma StripIdempotent(s: string)
    ensures Strip(Strip(s)) == Strip(s)
  {
    var r := Strip(s);
    TrimStartFacts(r);
    if r != [] {
      assert TrimStart(r) == r;
      assert TrimEnd(r) == r;
    }
  }

  /** `s[:n]` for a non-negative `n`. */
  function Take<T>(s: seq<T>, n: nat): (r: seq<T>)
    ensures |r| <= n && |r| <= |s|
    ensures |r| == n || r == s
    ensures r == s[..|r|]
  {
    if |s| <= n then s else s[..n]
  }

  predicate StartsWith(s: string, prefix: string) {
    |prefix| <= |s| && s[..|prefix|] == prefix
  }

  /** `sep.join(xs)` */
  function Join(xs: seq<string>, sep: string): string {
    if xs == [] then ""
    else if |xs| == 1 then xs[0]
    else xs[0] + sep + Join(xs[1..], sep)
  }

  /** `s.split(c)` for a single separator character. */
  function Split(s: string, c: char): (parts: seq<string>)
    ensures parts != []
  {
    if s == [] then [""]
    else if s[0] == c then [""] + Split(s[1..], c)
    else
      var rest := Split(s[1..], c);
      [[s[0]] + rest[0]] + rest[1..]
  }

  lemma {:induction false} SplitNoSep(x: string, c: char)
    requires c !in x
    ensures Split(x, c) == [x]
  {
    if x != [] {
      SplitNoSep(x[1..], c);
      assert [x[0]] + x[1..] == x;
    }
  }

  lemma {:induction false} SplitAfterPiece(x: string, c: char, t: string)
    requires c !in x
    ensures Split(x + [c] + t, c) == [x] + Split(t, c)
  {
    if x == [] {
      assert x + [c] + t == [c] + t;
      assert ([c] + t)[1..] == t;
    } else {
      SplitAfterPiece(x[1..], c, t);
      assert (x + [c] + t)[1..] == x[1..] + [c] + t;
      assert [x[0]] + x[1..] == x;
    }
  }

  /** Splitting a joined list of separator-free lines gives the lines back:
      `Join(xs, "\n")` holds exactly `|xs|` lines. */
  lemma {:induction false} SplitJoin(xs: seq<string>, c: char)
    requires xs != []
    requires forall i :: 0 <= i < |xs| ==> c !in xs[i]
    ensures Split(Join(xs, [c]), c) == xs
  {
    if |xs| == 1 {
      SplitNoSep(xs[0], c);
    } else {
      SplitJoin(xs[1..], c);
      SplitAfterPiece(xs[0], c, Join(xs[1..], [c]));
      assert [xs[0]] + xs[1..] == xs;
    }
  }

  /** A join of a non-empty list whose first element is non-empty is non-empty. */
  lemma JoinNonEmpty(xs: seq<string>, sep: string)
    requires xs != [] && xs[0] != ""
    ensures Join(xs, sep) != ""
  {
    if |xs| > 1 {
      assert Join(xs, sep)[0] == xs[0][0];
    }
  }

  /** A join contains a character only if a piece or the separator does. */
  lemma {:induction false} JoinAvoids(xs: seq<string>, sep: string, c: char)
    requires c !in sep
    requires forall i :: 0 <= i < |xs| ==> c !in xs[i]
    ensures c !in Join(xs, sep)
  {
    if |xs| > 1 {
      JoinAvoids(xs[1..], sep, c);
    }
  }

  function DigitChar(d: nat): char
    requires d < 10
  {
    ['0', '1', '2', '3', '4', '5', '6', '7', '8', '9'][d]
  }

  function DigitValue(c: char): nat {
    if '0' <= c <= '9' then (c as int - '0' as int) as nat else 0
  }

  predicate IsDigits(s: string) {
    forall i :: 0 <= i < |s| ==> '0' <= s[i] <= '9'
  }

  /** Decimal rendering of a non-negative integer, as `f"{n}"` prints it. */
  function NatToString(n: nat): (r: string)
    ensures r != [] && IsDigits(r)
    ensures |r| > 1 ==> r[0] != '0'
  {
    if n < 10 then [DigitChar(n)] else NatToString(n / 10) + [DigitChar(n % 10)]
  }

  /** The value of a string of decimal digits. */
  function ParseDigits(s: string): nat {
    if s == [] then 0 else ParseDigits(s[..|s| - 1]) * 10 + DigitValue(s[|s| - 1])
  }

  /** `NatToString` loses nothing: reading the digits back gives the number. */
  lemma {:induction false} NatToStringRoundTrip(n: nat)
    ensures ParseDigits(NatToString(n)) == n
  {
    var s := NatToString(n);
    if n >= 10 {
      NatToStringRoundTrip(n / 10);
      assert s[..|s| - 1] == NatToString(n / 10);
    }
  }

  /** Python's `a <= b` on strings: lexicographic by code point. */
  predicate StrLe(a: string, b: string) {
    if a == [] then true
    else if b == [] then false
    else if a[0] != b[0] then a[0] < b[0]
    else StrLe(a[1..], b[1..])
  }

  lemma {:induction false} StrLeTotal(a: string, b: string)
    ensures StrLe(a, b) || StrLe(b, a)
  {
    if a != [] && b != [] && a[0] == b[0] {
      StrLeTotal(a[1..], b[1..]);
    }
  }

  lemma {:induction false} StrLeTrans(a: string, b: string, c: string)
    requires StrLe(a, b) && StrLe(b, c)
    ensures StrLe(a, c)
  {
    if a != [] && b != [] && c != [] && a[0] == b[0] && b[0] == c[0] {
      StrLeTrans(a[1..], b[1..], c[1..]);
    }
  }

  lemma {:induction false} StrLeAntisym(a: string, b: string)
    requires StrLe(a, b) && StrLe(b, a)
    ensures a == b
  {
    if a != [] && b != [] {
      StrLeAntisym(a[1..], b[1..]);
      assert a == [a[0]] + a[1..];
      assert b == [b[0]] + b[1..];
    }
  }
}

=== FILE: wrappers.dfy ===
/** Option and Result, the two failure-carrying datatypes the model uses for
    Python's `None` returns and raised exceptions. */
module Wrappers {

  datatype Option<+T> = None | Some(value: T) {
    /** The value, or `default` when there is none. */
    function GetOr(default: T): T {
      match this
      case Some(v) => v
      case None => default
    }
  }

  datatype Result<+R, +E> = Ok(value: R) | Err(error: E)
}
